=== FILE: README.md ===
# JobBaord filtering, location catalogue and prediction route in Dafny

This project models two pieces of the JobBaord job board.

**The home page.** This is `frontend/src/pages/Home.jsx`. It decides which of the fetched job postings are shown:

- A posting is shown when its title contains the search text, ignoring case.
- One of its comma-separated location names must equal the selected location, after trimming and lower-casing.
- The largest number written in its experience text must equal the number typed into the experience box.
- The page builds the location drop-down from the postings. It keeps one spelling per name up to case, the first one met, and sorts the result.
- The experience box keeps only digits.

**The `/api/predict` route.** This is `backend/routes/jobRoutes.js`. It takes an uploaded résumé:

- It moves the file to a time-stamped name.
- It starts the prediction script on that file.
- It gathers the script's standard output and standard error.
- It answers at most once, and exactly once when the script's process closes: 400, 500 with a message, or 200 with the parsed output.

Modules, one per concern:

- `Wrappers`: `Option`.
- `Seqs`: order-preserving filtering and the subsequence relation.
- `Text`: JavaScript's `trim`, ASCII `toLowerCase`, `split` on one character, and `includes`.
- `Digits`: decimal digit strings and the rendering of a time stamp.
- `Experience`: `parseExperience`, `parseInt(_, 10)`, and the digit-only `onChange` handler.
- `JobFilter`: the posting record and `filteredJobs`.
- `StringOrder`: character-code order and insertion sort.
- `LocationCatalogue`: the `availableLocations` effect. It has a pure definition and a step-by-step method that mirrors the `forEach`/`Map` code.
- `PredictRoute`: the route handler.

The route's environment is passed in as plain values, so the route is a total function of its inputs:

- the result of `fs.rename`;
- the result of the synchronous start of the script: `spawn` and the attaching of the stream handlers, which either return or throw;
- the clock reading;
- the events that the child process's streams deliver;
- `JSON.parse`, as a function from text to an optional value of an opaque type.

Location matching compares whole comma-separated tokens for equality, not by containment (frontend/src/pages/Home.jsx:70-75).

## Model

| member | source | states |
|---|---|---|
| Experience.ParseExperience | frontend/src/pages/Home.jsx:56-61 | `parseExperience`: 0 for an absent or empty text, otherwise the largest number found in it. ParseExperienceIsMaxRun states what that value is. |
| Experience.Numbers | frontend/src/pages/Home.jsx:59 | `match(/\d+/g)?.map(Number) \|\| []`: the values of the maximal digit runs, left to right. RunValueInNumbers and NumbersAreRuns tie it to the runs. |
| Experience.ParseInt | frontend/src/pages/Home.jsx:81 | `parseInt(_, 10)`: it skips leading white space, reads one optional sign, then the longest digit prefix; no digit there gives NaN, modelled as `None`. |
| JobFilter.Keep | frontend/src/pages/Home.jsx:63-86 | The predicate passed to `jobs.filter`: the conjunction of the three checks. |
| JobFilter.TitleMatch | frontend/src/pages/Home.jsx:65-67 | The lower-cased title includes the trimmed, lower-cased search text. |
| JobFilter.LocationMatch | frontend/src/pages/Home.jsx:70-75 | The selection is empty, or its trimmed, lower-cased form is among the keys of the location's comma pieces, with an absent location read as "". |
| JobFilter.ExperienceMatch | frontend/src/pages/Home.jsx:78-83 | The input is empty, or `parseInt` of it equals the parsed experience; NaN equals nothing. |
| LocationCatalogue.AllTokens | frontend/src/pages/Home.jsx:35-39 | The non-empty trimmed location names of all jobs, job by job, in order. |
| LocationCatalogue.FirstSpellings | frontend/src/pages/Home.jsx:41-46 | The `locationMap`'s values in insertion order: a name is stored when no stored one has its lower-cased spelling. |
| PredictRoute.StagedName | backend/routes/jobRoutes.js:36 | The staged file name: the decimal time stamp, "_", then the original name. |
| PredictRoute.FeedAll | backend/routes/jobRoutes.js:49-61 | The handlers' state after a sequence of stream events: each data chunk is appended to its own text, and each `close` sends one response. |
| PredictRoute.OnClose | backend/routes/jobRoutes.js:61-73 | The `close` handler. A non-zero or missing code, or any standard-error text, gives 500 with that text or "Prediction failed". Otherwise the output is parsed: 200 with the value, or 500 "Invalid prediction response". |
| PredictRoute.HandlePredict | backend/routes/jobRoutes.js:30-78 | The whole route as a function of the file, clock, move result, start result, stream events and parser: the effects it performs and the responses it sends. |
| PredictRoute.StagedPath | backend/routes/jobRoutes.js:36 | The move's target: the upload directory joined with the staged name. SpawnsScriptOnStagedFile states that the script is started on this path. |
| PredictRoute.Feed | backend/routes/jobRoutes.js:53-73 | One stream event: a data chunk is appended to its own stream's text, and `close` appends the close handler's response. CaptureIsConcatenation and ResponsesPerClose state what a sequence of these steps yields. |
| JobFilter.SearchKey | frontend/src/pages/Home.jsx:67 | The search text as compared: trimmed, then lower-cased. TitleMatchIffOccurs states the matching it gives. |
| JobFilter.LocationKeys | frontend/src/pages/Home.jsx:72-74 | The keys a job's location is matched against: the location, or "" when absent, split at commas, each piece trimmed and lower-cased. LocationMatchIffToken states the matching it gives. |
| LocationCatalogue.LocationTokens | frontend/src/pages/Home.jsx:36-39 | One job's names for the drop-down: the location split at commas, each piece trimmed, empty pieces dropped. AllTokensMembership states which names these are. |
| Digits.DecimalValue | frontend/src/pages/Home.jsx:59 | `Number` applied to a digit run: its base-ten value. DecimalValueOfNatToString and NatToStringOfDecimalValue relate it to the rendering of numbers. |
| Text.Includes | frontend/src/pages/Home.jsx:67 | `String.prototype.includes`: the needle starts the text or is included in its tail. IncludesIffOccurs states it as an occurrence at some position. |
| Experience.ParseExperienceIsMaxRun | frontend/src/pages/Home.jsx:56-61 | The parsed experience is at least the value of every maximal digit run. It is the value of one of them when the text has a digit, and 0 when it has none. |
| Experience.ParseExperienceAbsent | frontend/src/pages/Home.jsx:57 | An absent or empty experience text counts as 0 years. |
| Experience.ParseExperienceRange | frontend/src/pages/Home.jsx:58-60 | "2-5 Yrs" parses to 5, the larger end of the range. |
| Experience.RunValueInNumbers | frontend/src/pages/Home.jsx:59 | The value of every maximal digit run is among the numbers `match(/\d+/g)` yields. |
| Experience.NumbersAreRuns | frontend/src/pages/Home.jsx:59 | Every yielded number is the value of some maximal digit run. |
| Experience.NumbersEmptyIffNoDigit | frontend/src/pages/Home.jsx:59-60 | No numbers are found exactly when the text has no digit. |
| Experience.MaxOf | frontend/src/pages/Home.jsx:60 | The result bounds every element. It is an element when there is one, and 0 for none. |
| Experience.ParseIntOfDigits | frontend/src/pages/Home.jsx:81 | On a non-empty digit string, `parseInt` is its base-ten value. |
| Experience.ParseIntReadsPrefix | frontend/src/pages/Home.jsx:81 | `parseInt` skips leading white space and stops at the first non-digit: " 7 years" reads as 7. |
| Experience.ParseIntReadsSign | frontend/src/pages/Home.jsx:81 | A leading sign is read: "-3" reads as -3. |
| Experience.ParseIntNoDigits | frontend/src/pages/Home.jsx:81 | A text without any digit reads as NaN, so no posting's experience equals it. |
| Experience.StripNonDigits | frontend/src/pages/Home.jsx:145 | The sanitised value is all digits. It is a subsequence of the raw value, and each digit keeps its multiplicity. |
| Experience.StripNonDigitsFixesDigits | frontend/src/pages/Home.jsx:145 | Sanitising leaves a value unchanged exactly when it is all digits, so sanitising is idempotent. |
| Experience.ExperienceInputAfter | frontend/src/pages/Home.jsx:144-145 | After any sequence of edits the stored input is all digits. It is empty before the first edit, as `useState("")` at line 11 sets it. |
| JobFilter.FilteredJobs | frontend/src/pages/Home.jsx:63-86 | The shown jobs are an order-preserving subsequence of the jobs. A job is shown iff it passes all three checks, and each kept job keeps its multiplicity. |
| JobFilter.BlankSearchMatchesAll | frontend/src/pages/Home.jsx:65-67 | An empty or white-space-only search text matches every title. |
| JobFilter.TitleMatchIffOccurs | frontend/src/pages/Home.jsx:65-67 | A title matches iff the trimmed, lower-cased search text occurs at some position of the lower-cased title. |
| JobFilter.NarrowerSearchNeverAdds | frontend/src/pages/Home.jsx:65-67 | A search text whose key contains the old key shows a subsequence of what the old one showed. |
| JobFilter.LocationKeysOf | frontend/src/pages/Home.jsx:74 | One key per location piece, each the trimmed and lower-cased piece. |
| JobFilter.LocationMatchIffToken | frontend/src/pages/Home.jsx:70-75 | A non-empty selection matches iff some comma-separated piece of the location has the same trimmed, lower-cased form. |
| JobFilter.SingleTokenLocation | frontend/src/pages/Home.jsx:70-75 | A location without commas matches iff it agrees with the selection after trimming and lower-casing. |
| JobFilter.PartOfTokenDoesNotMatch | frontend/src/pages/Home.jsx:70-75 | A selection shorter than a single-token location, such as "Pun" for "Pune", does not match it: matching is not by substring. |
| JobFilter.AbsentLocation | frontend/src/pages/Home.jsx:71-72 | A job without a location passes exactly the empty or blank selections. |
| JobFilter.ExperienceMatchOnDigits | frontend/src/pages/Home.jsx:78-83 | On a digit-only input, the experience check is exact equality of the parsed experience with the input's value. |
| JobFilter.ExperienceRangeExample | frontend/src/pages/Home.jsx:78-83 | A "2-5 Yrs" posting is kept for input "5" and dropped for "2" and "3". |
| JobFilter.NoFiltersShowAll | frontend/src/pages/Home.jsx:63-86 | With nothing entered, every job is shown, in order. |
| JobFilter.StricterShowsFewer | frontend/src/pages/Home.jsx:63-86 | Filters that reject at least as much show a subsequence of what the looser ones show. |
| JobFilter.AddingAFilterNeverAdds | frontend/src/pages/Home.jsx:63-86 | Setting any one filter where there was none never adds a job. |
| LocationCatalogue.TrimmedNonEmpty | frontend/src/pages/Home.jsx:38-39 | The kept names are non-empty and trimmed. |
| LocationCatalogue.TrimmedNonEmptyMembership | frontend/src/pages/Home.jsx:38-39 | A name is kept iff it is non-empty and is the trim of some piece. |
| LocationCatalogue.AllTokensValid | frontend/src/pages/Home.jsx:35-39 | Every collected location name is non-empty and trimmed. |
| LocationCatalogue.AllTokensMembership | frontend/src/pages/Home.jsx:35-39 | A name is collected iff it is a location name of some job. |
| LocationCatalogue.FirstSpellingsRepresent | frontend/src/pages/Home.jsx:41-46 | The map's values are case-distinct. Each is the first spelling of its name, and every name met has one. |
| LocationCatalogue.FirstSpellingsStep | frontend/src/pages/Home.jsx:42-45 | Offering one more name keeps that representation: it is stored only when its lower-cased key is new. |
| LocationCatalogue.SortCaseDistinct | frontend/src/pages/Home.jsx:49-51 | Sorting keeps the entries case-distinct. |
| LocationCatalogue.AvailableLocations | frontend/src/pages/Home.jsx:32-54 | The drop-down is sorted and has no two entries equal up to case. It holds no empty or untrimmed name, and exactly the first spellings. |
| LocationCatalogue.CatalogueCoverage | frontend/src/pages/Home.jsx:35-47 | Every location name of every job has exactly one entry up to case, and that entry is the first spelling met in job order. |
| LocationCatalogue.EveryEntrySelectsAJob | frontend/src/pages/Home.jsx:49-75 | Choosing any drop-down entry keeps at least one job through the location check. |
| LocationCatalogue.Offer | frontend/src/pages/Home.jsx:42-45 | One `has`/`set` step: the key set still equals the keys of the values, and the values are the first spellings so far. |
| LocationCatalogue.OfferAll | frontend/src/pages/Home.jsx:41-46 | The inner `forEach` extends the first spellings by the job's names. |
| LocationCatalogue.BuildCatalogue | frontend/src/pages/Home.jsx:32-54 | The imperative effect computes exactly `AvailableLocations`. |
| StringOrder.LeqTotal | frontend/src/pages/Home.jsx:50 | The comparison orders every pair of names. |
| StringOrder.LeqAntisymmetric | frontend/src/pages/Home.jsx:50 | Names ordered both ways are equal. |
| StringOrder.LeqTransitive | frontend/src/pages/Home.jsx:50 | The comparison is transitive. |
| StringOrder.Insert | frontend/src/pages/Home.jsx:49-51 | Inserting into a sorted list keeps it sorted and adds exactly the new element. |
| StringOrder.Sort | frontend/src/pages/Home.jsx:49-51 | The result is sorted and a permutation of the input. |
| StringOrder.SortedUnique | frontend/src/pages/Home.jsx:49-51 | Two sorted permutations of the same names are equal, so the sorted order is fully determined. |
| Text.Trim | frontend/src/pages/Home.jsx:38 | The trimmed text is no longer than the input, and neither starts nor ends with white space. |
| Text.TrimIsMiddle | frontend/src/pages/Home.jsx:38 | The trimmed text is a slice of the input with only white space before and after it. |
| Text.TrimOfSurrounded | frontend/src/pages/Home.jsx:38 | Any cut into white space, a trimmed middle and white space is the one `trim` makes. |
| Text.TrimIdempotent | frontend/src/pages/Home.jsx:38 | Trimming twice is trimming once. |
| Text.TrimEmptyIffAllSpace | frontend/src/pages/Home.jsx:39 | A text trims to the empty string iff it is all white space. |
| Text.TrimStart | frontend/src/pages/Home.jsx:81 | `parseInt`'s skipping of leading white space drops a white-space prefix and leaves a text that does not start with white space. |
| Text.ToLower | frontend/src/pages/Home.jsx:42 | Lower-casing keeps the length and folds each character. |
| Text.ToLowerHasNoUpper | frontend/src/pages/Home.jsx:42 | A lower-cased text has no ASCII capital. |
| Text.ToLowerIdempotent | frontend/src/pages/Home.jsx:42 | Lower-casing twice is lower-casing once. |
| Text.Split | frontend/src/pages/Home.jsx:37 | Splitting always yields at least one piece, so the empty text gives one empty piece. |
| Text.JoinSplit | frontend/src/pages/Home.jsx:37 | No piece holds the separator, and joining the pieces with it restores the text. |
| Text.SplitJoin | frontend/src/pages/Home.jsx:37 | Splitting a join of separator-free pieces gives back the pieces. |
| Text.IncludesIffOccurs | frontend/src/pages/Home.jsx:67 | `includes` holds iff the needle occurs at some position. |
| Text.IncludesTransitive | frontend/src/pages/Home.jsx:67 | Containment is transitive. |
| Seqs.Filter | frontend/src/pages/Home.jsx:63 | The filter result is no longer than its input, and every kept element satisfies the predicate. |
| Seqs.FilterIsSubsequence | frontend/src/pages/Home.jsx:63 | `Array.prototype.filter` keeps the original order. |
| Seqs.FilterMembership | frontend/src/pages/Home.jsx:63 | An element is kept iff it is in the input and satisfies the predicate. |
| Seqs.FilterMultiset | frontend/src/pages/Home.jsx:63 | Each kept element keeps its multiplicity, and the others are gone. |
| Seqs.FilterMonotone | frontend/src/pages/Home.jsx:63 | A stronger predicate keeps a subsequence of what a weaker one keeps. |
| Seqs.FilterKeepsAll | frontend/src/pages/Home.jsx:63 | A predicate that holds everywhere keeps the whole input. |
| Digits.NatToString | backend/routes/jobRoutes.js:36 | The rendered time stamp is a non-empty digit string without a superfluous leading zero. |
| Digits.DecimalValueOfNatToString | backend/routes/jobRoutes.js:36 | Reading the rendered time stamp back gives the time stamp. |
| Digits.NatToStringOfDecimalValue | backend/routes/jobRoutes.js:36 | A canonical digit string is the rendering of its value. |
| PredictRoute.StagedNameRoundTrip | backend/routes/jobRoutes.js:36 | The staged name reads back as the time stamp and the original name, underscores in the name included. |
| PredictRoute.ParseStagedNameSound | backend/routes/jobRoutes.js:36 | Every name that reads back is the staged name of what it reads back to. |
| PredictRoute.StagedNameInjective | backend/routes/jobRoutes.js:36 | Uploads that differ in time stamp or original name never share a staged name. |
| PredictRoute.NoFileIsClientError | backend/routes/jobRoutes.js:31-33 | No file means a single 400 "No file uploaded", with no move and no process. |
| PredictRoute.RenameFailureIsServerError | backend/routes/jobRoutes.js:38-77 | A failed move (line 41) is a single 500 carrying the error's message (lines 74-77), and no process is started. |
| PredictRoute.SpawnFailureIsServerError | backend/routes/jobRoutes.js:38-77 | A throw while starting the script after a successful move (lines 44-59) is a single 500 carrying the error's message (lines 74-77), and no process runs. |
| PredictRoute.SpawnsScriptOnStagedFile | backend/routes/jobRoutes.js:36-47 | After a successful move, `python3` is started once, with the script and the staged path. The staged name reads back as the request time and the original name. |
| PredictRoute.CaptureIsConcatenation | backend/routes/jobRoutes.js:49-59 | The gathered texts are the in-order concatenations of their own stream's chunks, however the streams interleave. |
| PredictRoute.ResponsesPerClose | backend/routes/jobRoutes.js:61-73 | One response is sent per `close` event and none otherwise. |
| PredictRoute.CompleteRunResponse | backend/routes/jobRoutes.js:49-73 | On a run that ends in one `close`, the single response is the close handler's verdict on the concatenated texts. |
| PredictRoute.NonZeroExitFails | backend/routes/jobRoutes.js:61-64 | A non-zero or missing exit code gives 500 with the standard-error text, or "Prediction failed" when that is empty. |
| PredictRoute.StderrTextFails | backend/routes/jobRoutes.js:62-63 | Any standard-error text gives 500 with that text, even on exit code 0. |
| PredictRoute.SuccessIff | backend/routes/jobRoutes.js:61-72 | The status is 200 iff exit code 0, empty standard error and parseable output. The parsed value is then sent as it is, and otherwise the status is 500 with an error body. |
| PredictRoute.UnparseableOutputFails | backend/routes/jobRoutes.js:66-72 | A clean exit with unparseable output gives 500 "Invalid prediction response". |
| PredictRoute.ExactlyOneResponse | backend/routes/jobRoutes.js:30-78 | Every request whose process runs to its `close` gets exactly one response. |
| PredictRoute.NoCloseNoResponse | backend/routes/jobRoutes.js:44-73 | A process that never closes leaves the request unanswered: there is no time-out. |
| PredictRoute.StatusSeparatesClientErrors | backend/routes/jobRoutes.js:30-78 | Status 400 occurs exactly when no file came, and every other response is 200 or 500. |
| PredictRoute.OnlyCloseResponses | backend/routes/jobRoutes.js:61-73 | Every response the stream handlers send comes from the `close` handler, so it is 200 or 500. |

## Left out

- The job list is an input sequence. `GET /api/jobs` (backend/routes/jobRoutes.js:19-27) is a database query and is not modelled.
- The loading flag and `fetchJobs` are not modelled. They are network calls and rendering state.
- The prediction script, training, the scraper, the Express and Mongoose wiring, and the other React components are not part of this model. They are machine learning, I/O and rendering.
- There is no skill-overlap score or ranking of postings, because the code has none.
- StringOrder.Sort: orders by character code instead of `localeCompare`, whose order depends on the locale. `localeCompare` can also tie distinct names, such as the composed and decomposed spellings of "Évora", which then keep their insertion order under the stable sort. The character-code order has no ties, so StringOrder.SortedUnique's "fully determined" holds for that order only.
- Text.ToLower: folds ASCII letters only, not the full Unicode case mapping of `toLowerCase`.
- Experience.ParseInt: reads numbers as unbounded integers. JavaScript's double-precision rounding of very long digit runs is not modelled.
- Experience.ParseExperienceIsMaxRun: uses unbounded integers as well, so `Number` and `Math.max` never lose precision here.
- Job titles are always present. The page calls `toLowerCase` on `job_title` unguarded, and a posting without one makes it throw. That error path is not modelled.
- Experience.ExperienceInputAfter: takes the raw text the handler receives. The browser's own handling of a `type="number"` field, which reports "" for text it cannot read as a number, is not modelled.
- PredictRoute.StagedPath: joins the upload directory and the file name with "/". `path.join`'s normalisation of `..` and separators is not modelled.
- The multer storage step and the temporary path it picks are not modelled. The route receives them as the `UploadedFile` value.
- `Date.now()` is a parameter, not a clock.
- PredictRoute.StagedNameInjective: two uploads of the same name in the same millisecond get the same staged path. The second move then replaces the first file, and the model does not rule this out.
- The child process's `error` event, emitted when `python3` cannot be started (for example when it is not installed), is not modelled. The route installs no listener for it, so Node raises it as an uncaught exception. The server installs no `uncaughtException` handler, so the whole server process exits and every request in flight is dropped, not only this one. The EMFILE and ENFILE failures are reported both ways: `spawn` returns without pipes, the `TypeError` from `stdout.on` sends the 500 of PredictRoute.SpawnFailureIsServerError first, and the queued `error` event then ends the server.
- The two streams are modelled as one interleaved sequence of events. Node's real concurrency is not modelled.
- Logging with `console.log` and `console.error` is not modelled.
- `JSON.parse` is a parameter from text to an optional value. The route passes the value on unexamined, so an `{"error": …}` payload that exits with code 0 is still a 200.

=== FILE: digits.dfy ===
/** Decimal digit strings and their values: the `\d` class of JavaScript
    regular expressions, `Number` of a run of digits, and the decimal
    rendering of a non-negative integer used by template strings. */
module Digits {

  /** JavaScript's `\d`: exactly the ASCII digits `0`..`9`. */
  predicate IsDigit(c: char) {
    '0' <= c <= '9'
  }

  predicate AllDigits(s: string) {
    forall k :: 0 <= k < |s| ==> IsDigit(s[k])
  }

  function DigitValue(c: char): (d: nat)
    requires IsDigit(c)
    ensures d < 10
  {
    c as int - '0' as int
  }

  function DigitChar(d: nat): (c: char)
    requires d < 10
    ensures IsDigit(c) && DigitValue(c) == d
  {
    ('0' as int + d) as char
  }

  /** The value of a digit string read in base ten; leading zeros are
      ignored and the empty string reads as 0. */
  function DecimalValue(s: string): nat
    requires AllDigits(s)
    decreases |s|
  {
    if s == [] then 0 else DecimalValue(s[..|s| - 1]) * 10 + DigitValue(s[|s| - 1])
  }

  /** The canonical decimal rendering of `n`: digits only, never empty, and
      no leading zero unless `n` is 0 itself. */
  function NatToString(n: nat): (r: string)
    ensures r != [] && AllDigits(r)
    ensures r[0] == '0' ==> n == 0 && r == "0"
    decreases n
  {
    if n < 10 then [DigitChar(n)] else NatToString(n / 10) + [DigitChar(n % 10)]
  }

  /** A digit string without superfluous leading zeros. */
  predicate IsCanonical(s: string) {
    s != [] && AllDigits(s) && (s[0] == '0' ==> |s| == 1)
  }

  /** Reading back a rendered number gives the number. */
  lemma {:induction false} DecimalValueOfNatToString(n: nat)
    ensures DecimalValue(NatToString(n)) == n
    decreases n
  {
    if n >= 10 {
      DecimalValueOfNatToString(n / 10);
      var r := NatToString(n);
      assert r[..|r| - 1] == NatToString(n / 10);
    }
  }

  /** Only a string of zeros reads as 0. */
  lemma {:induction false} ZeroValueMeansZeros(s: string)
    requires AllDigits(s) && s != []
    requires DecimalValue(s) == 0
    ensures s[0] == '0'
    decreases |s|
  {
    if |s| > 1 {
      ZeroValueMeansZeros(s[..|s| - 1]);
    }
  }

  /** Rendering the value of a canonical digit string gives the string back. */
  lemma {:induction false} NatToStringOfDecimalValue(s: string)
    requires IsCanonical(s)
    ensures NatToString(DecimalValue(s)) == s
    decreases |s|
  {
    if |s| > 1 {
      var p := s[..|s| - 1];
      assert IsCanonical(p);
      NatToStringOfDecimalValue(p);
      var v := DecimalValue(p);
      if v == 0 {
        ZeroValueMeansZeros(p);
      }
      var n := DecimalValue(s);
      assert n / 10 == v && n % 10 == DigitValue(s[|s| - 1]);
      assert s == p + [s[|s| - 1]];
    }
  }
}

=== FILE: experience.dfy ===
/** Reading years of experience: the posting side (`parseExperience`, the
    largest number written in the posting's free text), the query side
    (`parseInt(experienceInput, 10)`), and the sanitising `onChange` handler
    that keeps only digits in the experience input. */
module Experience {
  import opened Wrappers
  import opened Digits
  import Seqs
  import Text

  /** The length of the run of digits that `s` starts with. */
  function DigitPrefixLength(s: string): (n: nat)
    ensures n <= |s| && AllDigits(s[..n])
    ensures n < |s| ==> !IsDigit(s[n])
    decreases |s|
  {
    if s != [] && IsDigit(s[0]) then
      var m := DigitPrefixLength(s[1..]);
      assert s[..m + 1] == [s[0]] + s[1..][..m];
      m + 1
    else 0
  }

  /** `s[i..j]` is a maximal run of digits: one match of the global regular
      expression `/\d+/g`. */
  predicate IsRun(s: string, i: int, j: int) {
    && 0 <= i < j <= |s|
    && AllDigits(s[i..j])
    && (i == 0 || !IsDigit(s[i - 1]))
    && (j == |s| || !IsDigit(s[j]))
  }

  predicate HasDigit(s: string) {
    exists k :: 0 <= k < |s| && IsDigit(s[k])
  }

  /** `s.match(/\d+/g)?.map(Number) || []`: the values of the maximal digit
      runs of `s`, left to right. */
  function Numbers(s: string): seq<nat>
    decreases |s|
  {
    if s == [] then []
    else if !IsDigit(s[0]) then Numbers(s[1..])
    else
      var n := DigitPrefixLength(s);
      [DecimalValue(s[..n])] + Numbers(s[n..])
  }

  /** `Math.max(...ns)` guarded by the emptiness test: the largest element,
      or 0 for no elements. */
  function MaxOf(ns: seq<nat>): (m: nat)
    ensures forall k :: 0 <= k < |ns| ==> ns[k] <= m
    ensures ns != [] ==> m in ns
    ensures ns == [] ==> m == 0
    decreases |ns|
  {
    if ns == [] then 0
    else
      var rest := MaxOf(ns[1..]);
      if ns[0] >= rest then ns[0] else rest
  }

  /** `parseExperience`: 0 for an absent or empty text, otherwise the
      largest number written in it (0 when it holds no digit). */
  function ParseExperience(exp: Option<string>): nat {
    match exp
    case None => 0
    case Some(s) => if s == "" then 0 else MaxOf(Numbers(s))
  }

  /** A maximal run that starts where `s` starts is the digit prefix. */
  lemma RunAtStart(s: string, j: int)
    requires IsRun(s, 0, j)
    ensures j == DigitPrefixLength(s)
  {
    var n := DigitPrefixLength(s);
    forall k | 0 <= k < n ensures IsDigit(s[k]) {
      assert s[..n][k] == s[k];
    }
    forall k | 0 <= k < j ensures IsDigit(s[k]) {
      assert s[0..j][k] == s[k];
    }
  }

  /** Every maximal digit run contributes its value. */
  lemma {:induction false} RunValueInNumbers(s: string, i: int, j: int)
    requires IsRun(s, i, j)
    ensures DecimalValue(s[i..j]) in Numbers(s)
    decreases |s|
  {
    assert s[i..j][0] == s[i] && IsDigit(s[i]);
    if !IsDigit(s[0]) {
      assert i > 0;
      var t := s[1..];
      RunInSuffix(s, 1, i, j);
      RunValueInNumbers(t, i - 1, j - 1);
      assert Numbers(s) == Numbers(t);
    } else {
      var n := DigitPrefixLength(s);
      var t := s[n..];
      assert Numbers(s) == [DecimalValue(s[..n])] + Numbers(t);
      if i == 0 {
        RunAtStart(s, j);
        assert s[i..j] == s[..n];
      } else {
        forall k | 0 <= k < n ensures IsDigit(s[k]) {
          assert s[..n][k] == s[k];
        }
        assert i > n;
        RunInSuffix(s, n, i, j);
        RunValueInNumbers(t, i - n, j - n);
      }
    }
  }

  /** A maximal run of `s` at or after position `d` is one of `s[d..]`. */
  lemma RunInSuffix(s: string, d: nat, i: int, j: int)
    requires IsRun(s, i, j) && d <= i
    ensures IsRun(s[d..], i - d, j - d) && s[d..][i - d..j - d] == s[i..j]
  {
    var t := s[d..];
    assert t[i - d..j - d] == s[i..j];
    assert i == d || t[i - d - 1] == s[i - 1];
    assert j == |s| || t[j - d] == s[j];
  }

  /** Every value in `Numbers(s)` is the value of a maximal digit run. */
  lemma {:induction false} NumbersAreRuns(s: string, v: nat)
    requires v in Numbers(s)
    ensures exists i, j :: IsRun(s, i, j) && DecimalValue(s[i..j]) == v
    decreases |s|
  {
    if !IsDigit(s[0]) {
      assert Numbers(s) == Numbers(s[1..]);
      NumbersAreRuns(s[1..], v);
      var i, j :| IsRun(s[1..], i, j) && DecimalValue(s[1..][i..j]) == v;
      RunOfSuffix(s, 1, i, j);
    } else {
      var n := DigitPrefixLength(s);
      assert Numbers(s) == [DecimalValue(s[..n])] + Numbers(s[n..]);
      if v == DecimalValue(s[..n]) {
        assert s[0..n] == s[..n];
        assert IsRun(s, 0, n);
      } else {
        NumbersAreRuns(s[n..], v);
        var i, j :| IsRun(s[n..], i, j) && DecimalValue(s[n..][i..j]) == v;
        RunOfSuffix(s, n, i, j);
      }
    }
  }

  /** A maximal run of the suffix `s[d..]` is one of `s`, when `s[d..]` is
      cut right after a non-digit or at the end of a digit prefix. */
  lemma RunOfSuffix(s: string, d: nat, i: int, j: int)
    requires d <= |s| && IsRun(s[d..], i, j)
    requires d > 0 && (!IsDigit(s[d - 1]) || (d < |s| && !IsDigit(s[d])))
    ensures IsRun(s, i + d, j + d) && s[i + d..j + d] == s[d..][i..j]
  {
    var t := s[d..];
    assert t[i..j] == s[i + d..j + d];
    assert t[i..j][0] == t[i];
    assert i == 0 || t[i - 1] == s[i + d - 1];
    assert j == |t| || t[j] == s[j + d];
  }

  /** A text without digits has no numbers, and one with a digit has some. */
  lemma {:induction false} NumbersEmptyIffNoDigit(s: string)
    ensures Numbers(s) == [] <==> !HasDigit(s)
    decreases |s|
  {
    if s != [] {
      if !IsDigit(s[0]) {
        NumbersEmptyIffNoDigit(s[1..]);
        if HasDigit(s) {
          var k :| 0 <= k < |s| && IsDigit(s[k]);
          assert s[1..][k - 1] == s[k];
        }
        if HasDigit(s[1..]) {
          var k :| 0 <= k < |s| - 1 && IsDigit(s[1..][k]);
          assert s[k + 1] == s[1..][k];
        }
      }
    }
  }

  /** `parseExperience` returns the largest number written in the text: it is
      at least the value of every maximal digit run, it is the value of one of
      them when there is a digit, and it is 0 when there is none. */
  lemma ParseExperienceIsMaxRun(s: string)
    ensures forall i, j :: IsRun(s, i, j) ==> DecimalValue(s[i..j]) <= ParseExperience(Some(s))
    ensures HasDigit(s) ==> exists i, j :: IsRun(s, i, j) && DecimalValue(s[i..j]) == ParseExperience(Some(s))
    ensures !HasDigit(s) ==> ParseExperience(Some(s)) == 0
  {
    var ns := Numbers(s);
    NumbersEmptyIffNoDigit(s);
    forall i, j | IsRun(s, i, j) ensures DecimalValue(s[i..j]) <= ParseExperience(Some(s)) {
      RunValueInNumbers(s, i, j);
    }
    if HasDigit(s) {
      NumbersAreRuns(s, MaxOf(ns));
    }
  }

  /** An absent or empty experience text counts as 0 years. */
  lemma ParseExperienceAbsent()
    ensures ParseExperience(None) == 0
    ensures ParseExperience(Some("")) == 0
  {
  }

  /** The posting "2-5 Yrs" asks for 5 years: the larger end of the range. */
  lemma ParseExperienceRange()
    ensures ParseExperience(Some("2-5 Yrs")) == 5
  {
    var s := "2-5 Yrs";
    assert DigitPrefixLength(s) == 1;
    assert s[1..] == "-5 Yrs";
    assert s[2..] == "5 Yrs";
    assert DigitPrefixLength(s[2..]) == 1;
    assert s[3..] == " Yrs";
    assert Numbers(" Yrs") == [] by {
      NumbersEmptyIffNoDigit(" Yrs");
    }
    assert Numbers(s) == [2, 5];
  }

  /** `parseInt(s, 10)`, with `None` standing for `NaN`: leading white space
      is skipped, one optional sign is read, then the longest run of digits;
      no digit there means `NaN`. */
  function ParseInt(s: string): Option<int> {
    var t := Text.TrimStart(s);
    var negative := t != [] && t[0] == '-';
    var u := if t != [] && (t[0] == '-' || t[0] == '+') then t[1..] else t;
    var n := DigitPrefixLength(u);
    if n == 0 then None
    else
      var v: int := DecimalValue(u[..n]);
      Some(if negative then -v else v)
  }

  /** On a non-empty digit string `parseInt` is plain base-ten reading. */
  lemma ParseIntOfDigits(s: string)
    requires s != [] && AllDigits(s)
    ensures ParseInt(s) == Some(DecimalValue(s))
  {
    assert Text.TrimStart(s) == s;
    assert DigitPrefixLength(s) == |s|;
    assert s[..|s|] == s;
  }

  /** `parseInt` skips leading white space and stops at the first character
      that is not a digit. */
  lemma ParseIntReadsPrefix()
    ensures ParseInt(" 7 years") == Some(7)
  {
    var s := " 7 years";
    assert Text.IsSpace(s[0]) && !Text.IsSpace(s[1..][0]);
    assert s[1..] == "7 years";
    assert Text.TrimStart(s[1..]) == "7 years";
    var u := "7 years";
    assert !IsDigit(u[1..][0]);
    assert DigitPrefixLength(u[1..]) == 0;
    assert DigitPrefixLength(u) == 1;
    assert Text.TrimStart(s) == u;
    assert u[..1] == "7";
    assert DecimalValue(u[..1]) == 7;
  }

  /** A sign is read before the digits. */
  lemma ParseIntReadsSign()
    ensures ParseInt("-3") == Some(-3)
  {
    assert !Text.IsSpace("-3"[0]);
    assert Text.TrimStart("-3") == "-3";
    assert "-3"[1..] == "3";
    assert DigitPrefixLength("3") == 1;
    assert "3"[..1] == "3";
  }

  /** No digit to read means `NaN`. */
  lemma ParseIntNoDigits(s: string)
    requires !HasDigit(s)
    ensures ParseInt(s) == None
  {
    var t := Text.TrimStart(s);
    var u := if t != [] && (t[0] == '-' || t[0] == '+') then t[1..] else t;
    var d := |s| - |u|;
    assert u == s[d..];
    if u != [] {
      assert u[0] == s[d];
    }
  }

  /** The experience input's `onChange` handler, `value.replace(/\D/g, "")`:
      every non-digit is removed and the digits stay, in order and with
      their multiplicity. */
  function StripNonDigits(raw: string): (r: string)
    ensures AllDigits(r)
    ensures Seqs.IsSubsequence(r, raw)
    ensures forall c :: multiset(r)[c] == if IsDigit(c) then multiset(raw)[c] else 0
  {
    Seqs.FilterIsSubsequence(raw, IsDigit);
    Seqs.FilterMultisetAll(raw, IsDigit);
    Seqs.Filter(raw, IsDigit)
  }

  /** A digit string is left as it is, so sanitising twice is sanitising once. */
  lemma StripNonDigitsFixesDigits(raw: string)
    ensures StripNonDigits(raw) == raw <==> AllDigits(raw)
    ensures StripNonDigits(StripNonDigits(raw)) == StripNonDigits(raw)
  {
    Seqs.FilterKeepsAll(StripNonDigits(raw), IsDigit);
    if AllDigits(raw) {
      Seqs.FilterKeepsAll(raw, IsDigit);
    }
  }

  /** The experience input after a sequence of edits (each the raw value the
      browser reported): empty at first, then the sanitised last edit. */
  function ExperienceInputAfter(edits: seq<string>): (input: string)
    ensures AllDigits(input)
    ensures edits == [] ==> input == ""
  {
    if edits == [] then "" else StripNonDigits(edits[|edits| - 1])
  }
}

=== FILE: job_filter.dfy ===
/** The `filteredJobs` computation of the home page: a job is shown when its
    title contains the search text, one of its comma-separated locations is
    the selected one, and its experience equals the experience input. */
module JobFilter {
  import opened Wrappers
  import opened Text
  import opened Digits
  import opened Experience
  import Seqs

  /** A stored job posting, as far as the filter reads it: `job_title`,
      `location` and `experience`. The title is always present (the page
      calls `toLowerCase` on it unguarded); location and experience may be
      absent. */
  datatype Job = Job(
    title: string,
    location: Option<string>,
    experience: Option<string>)

  /** The three filter inputs of the page, as stored in its state. */
  datatype Filters = Filters(searchTitle: string, selectedLocation: string, experienceInput: string)

  /** The filter state the page starts with: nothing entered. */
  const NoFilters := Filters("", "", "")

  /** The search text as it is compared: trimmed, then lower-cased.
      `SearchKey` and `LocationKey` compute the same thing; they stay two
      names because the page writes the expression out twice, once for the
      search text (Home.jsx:67) and once for the location pieces and the
      selection (Home.jsx:74-75). */
  function SearchKey(searchTitle: string): string {
    ToLower(Trim(searchTitle))
  }

  predicate TitleMatch(job: Job, searchTitle: string) {
    Includes(ToLower(job.title), SearchKey(searchTitle))
  }

  /** A location piece or selection as it is compared: trimmed, then
      lower-cased. */
  function LocationKey(l: string): string {
    ToLower(Trim(l))
  }

  function LocationKeysOf(pieces: seq<string>): (keys: seq<string>)
    ensures |keys| == |pieces|
    ensures forall k :: 0 <= k < |pieces| ==> keys[k] == LocationKey(pieces[k])
    decreases |pieces|
  {
    if pieces == [] then [] else [LocationKey(pieces[0])] + LocationKeysOf(pieces[1..])
  }

  /** The location tokens a job is matched against: the location text (empty
      when absent) split at commas, each piece trimmed and lower-cased. */
  function LocationKeys(location: Option<string>): seq<string> {
    LocationKeysOf(Split(location.GetOr(""), ','))
  }

  predicate LocationMatch(job: Job, selectedLocation: string) {
    selectedLocation == "" || LocationKey(selectedLocation) in LocationKeys(job.location)
  }

  predicate ExperienceMatch(job: Job, experienceInput: string) {
    experienceInput == "" || ParseInt(experienceInput) == Some(ParseExperience(job.experience) as int)
  }

  /** The predicate passed to `jobs.filter`. */
  predicate Keep(job: Job, f: Filters) {
    && TitleMatch(job, f.searchTitle)
    && LocationMatch(job, f.selectedLocation)
    && ExperienceMatch(job, f.experienceInput)
  }

  /** `filteredJobs`: the jobs that pass all three checks, in the order of
      `jobs`, each with its multiplicity. */
  function FilteredJobs(jobs: seq<Job>, f: Filters): (shown: seq<Job>)
    ensures Seqs.IsSubsequence(shown, jobs)
    ensures forall j :: j in shown <==> j in jobs && Keep(j, f)
    ensures forall j :: multiset(shown)[j] == if Keep(j, f) then multiset(jobs)[j] else 0
  {
    var p := (j: Job) => Keep(j, f);
    Seqs.FilterIsSubsequence(jobs, p);
    Seqs.FilterMultisetAll(jobs, p);
    Seqs.FilterMembership(jobs, p);
    Seqs.Filter(jobs, p)
  }

  /** An empty or white-space-only search text matches every title. */
  lemma BlankSearchMatchesAll(job: Job, searchTitle: string)
    requires SpaceBetween(searchTitle, 0, |searchTitle|)
    ensures TitleMatch(job, searchTitle)
  {
    TrimEmptyIffAllSpace(searchTitle);
  }

  /** Title matching ignores ASCII case on both sides and surrounding white
      space in the search text; it is containment, anywhere in the title. */
  lemma TitleMatchIffOccurs(job: Job, searchTitle: string)
    ensures TitleMatch(job, searchTitle) <==> exists i :: OccursAt(ToLower(job.title), SearchKey(searchTitle), i)
  {
    assert TitleMatch(job, searchTitle) == Includes(ToLower(job.title), SearchKey(searchTitle));
    IncludesIffOccurs(ToLower(job.title), SearchKey(searchTitle));
  }

  /** Location matching is by whole comma-separated token, never by
      substring: a job matches a non-empty selection exactly when one of its
      location pieces, trimmed and lower-cased, equals the trimmed and
      lower-cased selection. */
  lemma LocationMatchIffToken(job: Job, selectedLocation: string)
    requires selectedLocation != ""
    ensures LocationMatch(job, selectedLocation) <==>
            exists piece :: piece in Split(job.location.GetOr(""), ',')
                            && LocationKey(piece) == LocationKey(selectedLocation)
  {
    var pieces := Split(job.location.GetOr(""), ',');
    var keys := LocationKeys(job.location);
    var key := LocationKey(selectedLocation);
    if key in keys {
      var k :| 0 <= k < |keys| && keys[k] == key;
      assert pieces[k] in pieces;
    }
    if exists piece :: piece in pieces && LocationKey(piece) == key {
      var piece :| piece in pieces && LocationKey(piece) == key;
      var k :| 0 <= k < |pieces| && pieces[k] == piece;
      assert keys[k] == key;
    }
  }

  /** A location without commas is one token: it matches a selection
      exactly when the two agree after trimming and lower-casing. */
  lemma SingleTokenLocation(job: Job, selectedLocation: string)
    requires job.location.Some? && ',' !in job.location.value
    requires selectedLocation != ""
    ensures LocationMatch(job, selectedLocation) <==> LocationKey(selectedLocation) == LocationKey(job.location.value)
  {
    var t := job.location.value;
    SplitJoin([t], ',');
    assert Split(t, ',') == [t];
  }

  /** Matching is by whole token, never by substring: a selection that is a
      strict part of a single-token location, such as "Pun" for "Pune",
      does not match it. */
  lemma PartOfTokenDoesNotMatch(job: Job, selectedLocation: string)
    requires job.location.Some? && ',' !in job.location.value
    requires selectedLocation != ""
    requires |Trim(selectedLocation)| < |Trim(job.location.value)|
    ensures !LocationMatch(job, selectedLocation)
  {
    SingleTokenLocation(job, selectedLocation);
  }

  /** With no selected location every job passes the location check; an
      absent location only passes an empty or blank selection. */
  lemma AbsentLocation(job: Job, selectedLocation: string)
    requires job.location == None
    ensures LocationMatch(job, selectedLocation) <==> SpaceBetween(selectedLocation, 0, |selectedLocation|)
  {
    assert Split("", ',') == [""];
    TrimOfTrimmed("");
    assert LocationKey("") == "";
    assert LocationKeys(None) == [""];
    TrimEmptyIffAllSpace(selectedLocation);
    assert LocationKey(selectedLocation) == "" <==> Trim(selectedLocation) == "";
  }

  /** On a sanitised experience input (digits only) the experience check is
      exact equality of the posting's largest number with the input's
      value: no ranges, no tolerance. */
  lemma ExperienceMatchOnDigits(job: Job, experienceInput: string)
    requires experienceInput != "" && AllDigits(experienceInput)
    ensures ExperienceMatch(job, experienceInput) <==> ParseExperience(job.experience) == DecimalValue(experienceInput)
  {
    ParseIntOfDigits(experienceInput);
  }

  /** A "2-5 Yrs" posting is kept for experience 5, dropped for 2 and 3. */
  lemma ExperienceRangeExample(job: Job)
    requires job.experience == Some("2-5 Yrs")
    ensures ExperienceMatch(job, "5")
    ensures !ExperienceMatch(job, "2")
    ensures !ExperienceMatch(job, "3")
  {
    ParseExperienceRange();
    assert DecimalValue("5") == 5 && DecimalValue("2") == 2 && DecimalValue("3") == 3;
    ExperienceMatchOnDigits(job, "5");
    ExperienceMatchOnDigits(job, "2");
    ExperienceMatchOnDigits(job, "3");
  }

  /** With nothing entered the page shows every job, in order. */
  lemma NoFiltersShowAll(jobs: seq<Job>)
    ensures FilteredJobs(jobs, NoFilters) == jobs
  {
    forall j: Job ensures Keep(j, NoFilters) {
      assert SearchKey("") == "" by { TrimOfTrimmed(""); }
    }
    Seqs.FilterKeepsAll(jobs, (j: Job) => Keep(j, NoFilters));
  }

  /** Filters that reject at least what `loose` rejects show a subsequence of
      what `loose` shows. */
  lemma StricterShowsFewer(jobs: seq<Job>, strict: Filters, loose: Filters)
    requires forall j :: Keep(j, strict) ==> Keep(j, loose)
    ensures Seqs.IsSubsequence(FilteredJobs(jobs, strict), FilteredJobs(jobs, loose))
  {
    Seqs.FilterMonotone(jobs, (j: Job) => Keep(j, strict), (j: Job) => Keep(j, loose));
  }

  /** Entering a search text, a location or an experience where there was
      none never adds a job. */
  lemma AddingAFilterNeverAdds(jobs: seq<Job>, f: Filters)
    ensures Seqs.IsSubsequence(FilteredJobs(jobs, f), FilteredJobs(jobs, f.(searchTitle := "")))
    ensures Seqs.IsSubsequence(FilteredJobs(jobs, f), FilteredJobs(jobs, f.(selectedLocation := "")))
    ensures Seqs.IsSubsequence(FilteredJobs(jobs, f), FilteredJobs(jobs, f.(experienceInput := "")))
  {
    TrimOfTrimmed("");
    assert SearchKey("") == "";
    StricterShowsFewer(jobs, f, f.(searchTitle := ""));
    StricterShowsFewer(jobs, f, f.(selectedLocation := ""));
    StricterShowsFewer(jobs, f, f.(experienceInput := ""));
  }

  /** Lengthening the search text so that the new key contains the old one
      never adds a job. */
  lemma NarrowerSearchNeverAdds(jobs: seq<Job>, f: Filters, narrower: string)
    requires Includes(SearchKey(narrower), SearchKey(f.searchTitle))
    ensures Seqs.IsSubsequence(FilteredJobs(jobs, f.(searchTitle := narrower)), FilteredJobs(jobs, f))
  {
    forall j | Keep(j, f.(searchTitle := narrower)) ensures Keep(j, f) {
      IncludesTransitive(ToLower(j.title), SearchKey(narrower), SearchKey(f.searchTitle));
    }
    StricterShowsFewer(jobs, f.(searchTitle := narrower), f);
  }
}

=== FILE: location_catalogue.dfy ===
/** The location drop-down of the home page (`availableLocations`): every
    location name that occurs in the jobs' comma-separated location texts,
    one spelling per name up to ASCII case (the first one met, in job order),
    sorted. */
module LocationCatalogue {
  import opened Wrappers
  import opened Text
  import opened StringOrder
  import JobFilter

  /** Location names as the catalogue holds them: non-empty and trimmed. */
  predicate ValidNames(names: seq<string>) {
    forall k :: 0 <= k < |names| ==> names[k] != "" && IsTrimmed(names[k])
  }

  /** The trimmed pieces, empty ones dropped: `.map(l => l.trim()).filter(l => l)`. */
  function TrimmedNonEmpty(pieces: seq<string>): (tokens: seq<string>)
    ensures ValidNames(tokens)
    decreases |pieces|
  {
    if pieces == [] then []
    else
      var rest := TrimmedNonEmpty(pieces[1..]);
      var t := Trim(pieces[0]);
      if t == "" then rest else [t] + rest
  }

  /** The names kept are exactly the non-empty trimmed pieces. */
  lemma {:induction false} TrimmedNonEmptyMembership(pieces: seq<string>, t: string)
    ensures t in TrimmedNonEmpty(pieces) <==> t != "" && exists k :: 0 <= k < |pieces| && Trim(pieces[k]) == t
    decreases |pieces|
  {
    if pieces != [] {
      TrimmedNonEmptyMembership(pieces[1..], t);
      if k :| 0 <= k < |pieces| - 1 && Trim(pieces[1..][k]) == t {
        assert pieces[k + 1] == pieces[1..][k];
      }
      if k :| 0 <= k < |pieces| && Trim(pieces[k]) == t {
        if k > 0 {
          assert pieces[1..][k - 1] == pieces[k];
        }
      }
    }
  }

  /** The location names of one job: its location text (empty when absent)
      split at commas, trimmed, empty names dropped. */
  function LocationTokens(location: Option<string>): seq<string> {
    TrimmedNonEmpty(Split(location.GetOr(""), ','))
  }

  /** The location names of all jobs, job by job, in order. */
  function AllTokens(jobs: seq<JobFilter.Job>): seq<string>
    decreases |jobs|
  {
    if jobs == [] then []
    else AllTokens(jobs[..|jobs| - 1]) + LocationTokens(jobs[|jobs| - 1].location)
  }

  /** Every collected name is non-empty and trimmed. */
  lemma {:induction false} AllTokensValid(jobs: seq<JobFilter.Job>)
    ensures ValidNames(AllTokens(jobs))
    decreases |jobs|
  {
    if jobs != [] {
      AllTokensValid(jobs[..|jobs| - 1]);
    }
  }

  lemma {:induction false} AllTokensMembership(jobs: seq<JobFilter.Job>, t: string)
    ensures t in AllTokens(jobs) <==> exists j :: 0 <= j < |jobs| && t in LocationTokens(jobs[j].location)
    decreases |jobs|
  {
    if jobs != [] {
      var n := |jobs| - 1;
      var init := jobs[..n];
      var last := LocationTokens(jobs[n].location);
      assert AllTokens(jobs) == AllTokens(init) + last;
      assert t in AllTokens(jobs) <==> t in AllTokens(init) || t in last;
      AllTokensMembership(init, t);
      assert forall j :: 0 <= j < n ==> init[j] == jobs[j];
    }
  }

  /** Some entry is spelled `key` once lower-cased. */
  predicate HasKey(entries: seq<string>, key: string) {
    exists i :: 0 <= i < |entries| && ToLower(entries[i]) == key
  }

  /** No two entries differ only in ASCII case. */
  predicate CaseDistinct(entries: seq<string>) {
    forall i, j :: 0 <= i < j < |entries| ==> ToLower(entries[i]) != ToLower(entries[j])
  }

  /** No token before position `k` has the lower-cased spelling `key`. */
  predicate NoEarlierKey(tokens: seq<string>, k: int, key: string)
    requires 0 <= k <= |tokens|
  {
    forall m :: 0 <= m < k ==> ToLower(tokens[m]) != key
  }

  /** `e` occurs in `tokens` and no earlier token has its lower-cased
      spelling: it is the first spelling of its name. */
  predicate IsFirstSpelling(tokens: seq<string>, e: string) {
    exists k :: 0 <= k < |tokens| && tokens[k] == e && NoEarlierKey(tokens, k, ToLower(e))
  }

  /** `entries` holds one spelling per name of `tokens` up to case, namely
      the first one. */
  predicate RepresentsByFirstSpelling(tokens: seq<string>, entries: seq<string>) {
    && CaseDistinct(entries)
    && (forall e :: e in entries ==> IsFirstSpelling(tokens, e))
    && (forall k :: 0 <= k < |tokens| ==> HasKey(entries, ToLower(tokens[k])))
  }

  /** The values of the `locationMap` once every token has been offered to
      it, in insertion order: a token is stored when no stored one has the
      same lower-cased spelling. */
  function FirstSpellings(tokens: seq<string>): seq<string>
    decreases |tokens|
  {
    if tokens == [] then []
    else
      var prev := FirstSpellings(tokens[..|tokens| - 1]);
      var t := tokens[|tokens| - 1];
      if HasKey(prev, ToLower(t)) then prev else prev + [t]
  }

  /** The map's values are case-distinct, each is the first spelling of its
      name, and every token's name has one. */
  lemma {:induction false} FirstSpellingsRepresent(tokens: seq<string>)
    ensures RepresentsByFirstSpelling(tokens, FirstSpellings(tokens))
    decreases |tokens|
  {
    if tokens != [] {
      var init := tokens[..|tokens| - 1];
      FirstSpellingsRepresent(init);
      FirstSpellingsStep(tokens, FirstSpellings(init));
    }
  }

  lemma FirstSpellingsStep(tokens: seq<string>, prev: seq<string>)
    requires tokens != []
    requires RepresentsByFirstSpelling(tokens[..|tokens| - 1], prev)
    ensures var t := tokens[|tokens| - 1];
            RepresentsByFirstSpelling(tokens, if HasKey(prev, ToLower(t)) then prev else prev + [t])
  {
    var n := |tokens| - 1;
    var init := tokens[..n];
    var t := tokens[n];
    forall e | e in prev ensures IsFirstSpelling(tokens, e) {
      var k :| 0 <= k < |init| && init[k] == e && NoEarlierKey(init, k, ToLower(e));
      assert tokens[k] == e;
      assert NoEarlierKey(tokens, k, ToLower(e)) by {
        forall m | 0 <= m < k ensures ToLower(tokens[m]) != ToLower(e) {
          assert tokens[m] == init[m];
        }
      }
    }
    if !HasKey(prev, ToLower(t)) {
      var entries := prev + [t];
      assert NoEarlierKey(tokens, n, ToLower(t)) by {
        forall m | 0 <= m < n ensures ToLower(tokens[m]) != ToLower(t) {
          assert HasKey(prev, ToLower(tokens[m]));
        }
      }
      assert IsFirstSpelling(tokens, t);
      forall k | 0 <= k < |tokens| ensures HasKey(entries, ToLower(tokens[k])) {
        if k < n {
          var i :| 0 <= i < |prev| && ToLower(prev[i]) == ToLower(tokens[k]);
          assert entries[i] == prev[i];
        } else {
          assert entries[|prev|] == t;
        }
      }
    }
  }

  /** Insertion keeps entries case-distinct when the new one's name is new. */
  lemma InsertCaseDistinct(x: string, s: seq<string>)
    requires Sorted(s) && CaseDistinct(s) && !HasKey(s, ToLower(x))
    ensures CaseDistinct(Insert(x, s))
    decreases |s|
  {
    if s != [] && !Leq(x, s[0]) {
      var rest := Insert(x, s[1..]);
      assert !HasKey(s[1..], ToLower(x)) by {
        assert forall i :: 0 <= i < |s| - 1 ==> s[1..][i] == s[i + 1];
      }
      InsertCaseDistinct(x, s[1..]);
      var r := [s[0]] + rest;
      forall j | 0 < j < |r| ensures ToLower(r[0]) != ToLower(r[j]) {
        var y := rest[j - 1];
        assert r[j] == y;
        InsertMember(x, s[1..], y);
        if y != x {
          TailMember(s, y);
        }
      }
    }
  }

  /** An element of the tail sits behind the head. */
  lemma TailMember(s: seq<string>, y: string)
    requires s != [] && y in s[1..]
    ensures exists k :: 1 <= k < |s| && s[k] == y
  {
    var k :| 0 <= k < |s[1..]| && s[1..][k] == y;
    assert s[k + 1] == y;
  }

  /** Sorting keeps entries case-distinct. */
  lemma {:induction false} SortCaseDistinct(s: seq<string>)
    requires CaseDistinct(s)
    ensures CaseDistinct(Sort(s))
    decreases |s|
  {
    if s != [] {
      var rest := Sort(s[1..]);
      SortCaseDistinct(s[1..]);
      forall i | 0 <= i < |rest| ensures ToLower(rest[i]) != ToLower(s[0]) {
        assert rest[i] in multiset(s[1..]);
        var k :| 0 <= k < |s[1..]| && s[1..][k] == rest[i];
        assert s[k + 1] == rest[i];
      }
      InsertCaseDistinct(s[0], rest);
    }
  }

  lemma ValidNamesOfMembers(a: seq<string>, b: seq<string>)
    requires ValidNames(b)
    requires forall e :: e in a ==> e in b
    ensures ValidNames(a)
  {
    forall k | 0 <= k < |a| ensures a[k] != "" && IsTrimmed(a[k]) {
      assert a[k] in b;
    }
  }

  lemma FirstSpellingsMembers(tokens: seq<string>)
    ensures forall e :: e in FirstSpellings(tokens) ==> e in tokens
  {
    FirstSpellingsRepresent(tokens);
    forall e | e in FirstSpellings(tokens) ensures e in tokens {
      assert IsFirstSpelling(tokens, e);
    }
  }

  /** `availableLocations`: the first spelling of every location name, sorted
      by character code. The result is sorted, free of case duplicates, and
      holds only non-empty trimmed names, exactly those first spellings. */
  function AvailableLocations(jobs: seq<JobFilter.Job>): (locations: seq<string>)
    ensures Sorted(locations)
    ensures CaseDistinct(locations)
    ensures ValidNames(locations)
    ensures forall e :: e in locations <==> e in FirstSpellings(AllTokens(jobs))
  {
    var tokens := AllTokens(jobs);
    var entries := FirstSpellings(tokens);
    FirstSpellingsRepresent(tokens);
    AllTokensValid(jobs);
    FirstSpellingsMembers(tokens);
    ValidNamesOfMembers(entries, tokens);
    SortCaseDistinct(entries);
    var locations := Sort(entries);
    assert forall e :: e in locations <==> e in multiset(entries);
    ValidNamesOfMembers(locations, entries);
    locations
  }

  /** Every location name of every job has exactly one entry in the
      catalogue, and that entry is the name's first spelling in job order. */
  lemma CatalogueCoverage(jobs: seq<JobFilter.Job>, t: string)
    requires t in AllTokens(jobs)
    ensures var locations := AvailableLocations(jobs);
            exists i :: 0 <= i < |locations| && ToLower(locations[i]) == ToLower(t)
                        && IsFirstSpelling(AllTokens(jobs), locations[i])
    ensures var locations := AvailableLocations(jobs);
            forall i, j :: (0 <= i < |locations| && 0 <= j < |locations|
                            && ToLower(locations[i]) == ToLower(t) && ToLower(locations[j]) == ToLower(t)) ==> i == j
  {
    var tokens := AllTokens(jobs);
    var entries := FirstSpellings(tokens);
    FirstSpellingsRepresent(tokens);
    var locations := AvailableLocations(jobs);
    var k :| 0 <= k < |tokens| && tokens[k] == t;
    var i :| 0 <= i < |entries| && ToLower(entries[i]) == ToLower(t);
    assert entries[i] in locations;
    var i' :| 0 <= i' < |locations| && locations[i'] == entries[i];
    forall a, b | 0 <= a < |locations| && 0 <= b < |locations|
                  && ToLower(locations[a]) == ToLower(t) && ToLower(locations[b]) == ToLower(t)
      ensures a == b
    {
    }
  }

  /** Each catalogue entry is a location name of some job, so choosing it in
      the drop-down keeps that job through the location check. */
  lemma EveryEntrySelectsAJob(jobs: seq<JobFilter.Job>, e: string)
    requires e in AvailableLocations(jobs)
    ensures exists j :: 0 <= j < |jobs| && JobFilter.LocationMatch(jobs[j], e)
  {
    var tokens := AllTokens(jobs);
    var entries := FirstSpellings(tokens);
    FirstSpellingsRepresent(tokens);
    assert e in entries;
    var k :| 0 <= k < |tokens| && tokens[k] == e && NoEarlierKey(tokens, k, ToLower(e));
    AllTokensMembership(jobs, e);
    var j :| 0 <= j < |jobs| && e in LocationTokens(jobs[j].location);
    var pieces := Split(jobs[j].location.GetOr(""), ',');
    TrimmedNonEmptyMembership(pieces, e);
    var m :| 0 <= m < |pieces| && Trim(pieces[m]) == e;
    var p := pieces[m];
    TrimOfTrimmed(e);
    assert JobFilter.LocationKey(p) == JobFilter.LocationKey(e);
    assert JobFilter.LocationKeys(jobs[j].location)[m] == JobFilter.LocationKey(e);
  }

  lemma AllTokensStep(jobs: seq<JobFilter.Job>, i: nat)
    requires i < |jobs|
    ensures AllTokens(jobs[..i + 1]) == AllTokens(jobs[..i]) + LocationTokens(jobs[i].location)
  {
    assert jobs[..i + 1][..i] == jobs[..i];
  }

  lemma FirstSpellingsStepOne(before: seq<string>, l: string)
    ensures FirstSpellings(before + [l]) ==
            if HasKey(FirstSpellings(before), ToLower(l)) then FirstSpellings(before)
            else FirstSpellings(before) + [l]
  {
    assert (before + [l])[..|before|] == before;
  }

  lemma HasKeyStep(values: seq<string>, l: string, key: string)
    ensures HasKey(values + [l], key) <==> HasKey(values, key) || ToLower(l) == key
  {
    var v := values + [l];
    if HasKey(values, key) {
      var i :| 0 <= i < |values| && ToLower(values[i]) == key;
      assert v[i] == values[i];
    }
    if ToLower(l) == key {
      assert v[|values|] == l;
    }
    if HasKey(v, key) {
      var i :| 0 <= i < |v| && ToLower(v[i]) == key;
      if i < |values| {
        assert v[i] == values[i];
      }
    }
  }

  /** `seen` is exactly the set of keys that `values` hold: the map's key set. */
  ghost predicate Tracks(seen: set<string>, values: seq<string>) {
    forall key :: key in seen <==> HasKey(values, key)
  }

  /** The inner callback: stores `l` under its lower-cased spelling unless
      that key is already present. */
  method Offer(seen: set<string>, values: seq<string>, ghost before: seq<string>, l: string)
    returns (seen': set<string>, values': seq<string>)
    requires values == FirstSpellings(before)
    requires Tracks(seen, values)
    ensures values' == FirstSpellings(before + [l])
    ensures Tracks(seen', values')
  {
    var normalized := ToLower(l);
    FirstSpellingsStepOne(before, l);
    if normalized !in seen {
      forall key ensures HasKey(values + [l], key) <==> HasKey(values, key) || normalized == key {
        HasKeyStep(values, l, key);
      }
      seen' := seen + {normalized};
      values' := values + [l];
    } else {
      seen', values' := seen, values;
    }
  }

  /** The inner `forEach`: offers `tokens`, in order, to the map whose key
      set is `seen` and whose values are `values`. */
  method OfferAll(seen: set<string>, values: seq<string>, ghost done: seq<string>, tokens: seq<string>)
    returns (seen': set<string>, values': seq<string>)
    requires values == FirstSpellings(done)
    requires Tracks(seen, values)
    ensures values' == FirstSpellings(done + tokens)
    ensures Tracks(seen', values')
  {
    seen', values' := seen, values;
    var k := 0;
    assert done + tokens[..0] == done;
    while k < |tokens|
      invariant 0 <= k <= |tokens|
      invariant values' == FirstSpellings(done + tokens[..k])
      invariant Tracks(seen', values')
    {
      seen', values' := Offer(seen', values', done + tokens[..k], tokens[k]);
      assert done + tokens[..k + 1] == (done + tokens[..k]) + [tokens[k]];
      k := k + 1;
    }
    assert tokens[..|tokens|] == tokens;
  }

  /** The page's effect, step by step: each job's location names are offered,
      in order, to a map keyed by the lower-cased name (modelled by its key
      set and its values in insertion order); the map's values are then
      sorted. */
  method BuildCatalogue(jobs: seq<JobFilter.Job>) returns (locations: seq<string>)
    ensures locations == AvailableLocations(jobs)
  {
    var seen: set<string> := {};
    var values: seq<string> := [];
    var i := 0;
    while i < |jobs|
      invariant 0 <= i <= |jobs|
      invariant values == FirstSpellings(AllTokens(jobs[..i]))
      invariant Tracks(seen, values)
    {
      seen, values := OfferAll(seen, values, AllTokens(jobs[..i]), LocationTokens(jobs[i].location));
      AllTokensStep(jobs, i);
      i := i + 1;
    }
    assert jobs[..|jobs|] == jobs;
    locations := Sort(values);
  }
}

=== FILE: predict_route.dfy ===
/** The `/api/predict` route: an uploaded résumé is moved to a time-stamped
    name, handed to the prediction script as a child process, and the
    process's output is turned into at most one HTTP response, and exactly
    one when the process closes.

    The file move, the clock, the start of the script, the child process
    and `JSON.parse` are inputs: the move's outcome is a `RenameResult`, the
    clock a number, the synchronous start of the script a `SpawnResult`, the
    process the sequence of events its streams deliver, and the parser a
    function from text to an optional value of an opaque type `J`. */
module PredictRoute {
  import opened Wrappers
  import opened Digits

  /** The file multer stored: its temporary path and the client's name for it. */
  datatype UploadedFile = UploadedFile(tempPath: string, originalName: string)

  /** The outcome of `fs.rename`. */
  datatype RenameResult = Renamed | RenameFailed(message: string)

  /** The outcome of the synchronous part of starting the script: `spawn`
      itself and the `on` calls that attach the stream handlers. `spawn`
      throws for start-up errors other than EACCES, EAGAIN, EMFILE, ENFILE
      and ENOENT, and for invalid arguments; those five arrive later as the
      process's `error` event, which is not modelled. On EMFILE and ENFILE
      `spawn` returns without pipes and the first `stdout.on` throws a
      `TypeError`. Either throw reaches the same `catch`, which answers with
      the error's message, and no process runs. */
  datatype SpawnResult = Spawned | SpawnThrew(message: string)

  /** What the child process delivers: a chunk on standard output, a chunk
      on standard error, or the `close` event with its exit code (`None`
      when the process was ended by a signal and Node reports `null`). A
      chunk is already text: the `data.toString()` of one `Buffer`. Each
      `Buffer` is decoded on its own, so a UTF-8 character split across two
      of them arrives as replacement characters; that decoding is not
      modelled. */
  datatype StreamEvent = StdoutData(chunk: string) | StderrData(chunk: string) | Close(code: Option<int>)

  /** A JSON response body: the parsed prediction, passed on unexamined, or
      an `{ error }` object. */
  datatype Body<J> = Json(value: J) | Error(message: string)

  datatype Response<J> = Response(status: int, body: Body<J>)

  /** The route's side effects, in the order it performs them. */
  datatype Effect = Rename(source: string, target: string) | Spawn(command: string, args: seq<string>)

  datatype Outcome<J> = Outcome(effects: seq<Effect>, responses: seq<Response<J>>)

  /** Where uploads are staged and where the prediction script lives. */
  datatype Config = Config(uploadsDir: string, scriptPath: string)

  const NoFileMessage := "No file uploaded"
  const FailedMessage := "Prediction failed"
  const InvalidMessage := "Invalid prediction response"
  const Interpreter := "python3"

  /** `${Date.now()}_${originalname}`. */
  function StagedName(now: nat, originalName: string): string {
    NatToString(now) + "_" + originalName
  }

  function StagedPath(cfg: Config, now: nat, originalName: string): string {
    cfg.uploadsDir + "/" + StagedName(now, originalName)
  }

  /** The position of the first `c` in `s`, if any. */
  function FirstIndexOf(s: string, c: char): (r: Option<nat>)
    ensures r.None? ==> c !in s
    ensures r.Some? ==> r.value < |s| && s[r.value] == c && c !in s[..r.value]
    decreases |s|
  {
    if s == [] then None
    else if s[0] == c then Some(0)
    else
      match FirstIndexOf(s[1..], c)
      case None => None
      case Some(i) =>
        assert s[..i + 1] == [s[0]] + s[1..][..i];
        Some(i + 1)
  }

  /** Reads a staged name back: the canonical decimal number before the
      first `_`, and everything after it. */
  function ParseStagedName(name: string): Option<(nat, string)> {
    match FirstIndexOf(name, '_')
    case None => None
    case Some(i) =>
      if IsCanonical(name[..i]) then Some((DecimalValue(name[..i]), name[i + 1..])) else None
  }

  /** The staged name records the time stamp and the original name without
      loss, whatever the original name holds (underscores included). */
  lemma StagedNameRoundTrip(now: nat, originalName: string)
    ensures ParseStagedName(StagedName(now, originalName)) == Some((now, originalName))
  {
    var d := NatToString(now);
    var name := StagedName(now, originalName);
    assert name[..|d|] == d;
    assert name[|d|] == '_';
    assert '_' !in d;
    var i := FirstIndexOf(name, '_').value;
    assert i == |d|;
    assert name[i + 1..] == originalName;
    DecimalValueOfNatToString(now);
  }

  /** Conversely, every name that reads back is the staged name of what it
      reads back to. */
  lemma ParseStagedNameSound(name: string, now: nat, originalName: string)
    requires ParseStagedName(name) == Some((now, originalName))
    ensures StagedName(now, originalName) == name
  {
    var i := FirstIndexOf(name, '_').value;
    NatToStringOfDecimalValue(name[..i]);
    assert name == name[..i] + "_" + name[i + 1..];
  }

  /** Two uploads staged at different times, or under different original
      names, never share a staged name. */
  lemma StagedNameInjective(t1: nat, n1: string, t2: nat, n2: string)
    requires StagedName(t1, n1) == StagedName(t2, n2)
    ensures t1 == t2 && n1 == n2
  {
    StagedNameRoundTrip(t1, n1);
    StagedNameRoundTrip(t2, n2);
  }

  /** The `close` handler: a non-zero (or missing) exit code or any text on
      standard error is a failure reported with that text, or with
      "Prediction failed" when there is none; otherwise standard output is
      parsed and sent as it is, or the failure to parse is reported. */
  function OnClose<J>(code: Option<int>, stdout: string, stderr: string, parse: string -> Option<J>): Response<J> {
    if code != Some(0) || stderr != "" then
      Response(500, Error(if stderr != "" then stderr else FailedMessage))
    else
      match parse(stdout)
      case Some(prediction) => Response(200, Json(prediction))
      case None => Response(500, Error(InvalidMessage))
  }

  /** The handler's closure state while the process runs: the two
      accumulated texts and the responses sent so far. */
  datatype Capture<J> = Capture(stdout: string, stderr: string, responses: seq<Response<J>>)

  /** One stream event: data is appended to its text, `close` sends the
      response computed from the texts gathered so far. */
  function Feed<J>(c: Capture<J>, ev: StreamEvent, parse: string -> Option<J>): Capture<J> {
    match ev
    case StdoutData(chunk) => c.(stdout := c.stdout + chunk)
    case StderrData(chunk) => c.(stderr := c.stderr + chunk)
    case Close(code) => c.(responses := c.responses + [OnClose(code, c.stdout, c.stderr, parse)])
  }

  /** The state after a sequence of events, starting from `result = ''`,
      `error = ''` and nothing sent. */
  function FeedAll<J>(events: seq<StreamEvent>, parse: string -> Option<J>): Capture<J>
    decreases |events|
  {
    if events == [] then Capture("", "", [])
    else Feed(FeedAll(events[..|events| - 1], parse), events[|events| - 1], parse)
  }

  function Concat(chunks: seq<string>): string
    decreases |chunks|
  {
    if chunks == [] then "" else Concat(chunks[..|chunks| - 1]) + chunks[|chunks| - 1]
  }

  /** The standard-output chunks among the events, in order. */
  function StdoutChunks(events: seq<StreamEvent>): seq<string>
    decreases |events|
  {
    if events == [] then []
    else
      var init := StdoutChunks(events[..|events| - 1]);
      match events[|events| - 1]
      case StdoutData(chunk) => init + [chunk]
      case _ => init
  }

  /** The standard-error chunks among the events, in order. */
  function StderrChunks(events: seq<StreamEvent>): seq<string>
    decreases |events|
  {
    if events == [] then []
    else
      var init := StderrChunks(events[..|events| - 1]);
      match events[|events| - 1]
      case StderrData(chunk) => init + [chunk]
      case _ => init
  }

  function CloseCount(events: seq<StreamEvent>): nat
    decreases |events|
  {
    if events == [] then 0
    else CloseCount(events[..|events| - 1]) + if events[|events| - 1].Close? then 1 else 0
  }

  /** The accumulated texts are the in-order concatenations of the chunks
      of their own stream, however the two streams interleave. */
  lemma {:induction false} CaptureIsConcatenation<J>(events: seq<StreamEvent>, parse: string -> Option<J>)
    ensures FeedAll(events, parse).stdout == Concat(StdoutChunks(events))
    ensures FeedAll(events, parse).stderr == Concat(StderrChunks(events))
    decreases |events|
  {
    if events != [] {
      CaptureIsConcatenation(events[..|events| - 1], parse);
    }
  }

  /** One response is sent per `close` event, and none before it. */
  lemma {:induction false} ResponsesPerClose<J>(events: seq<StreamEvent>, parse: string -> Option<J>)
    ensures |FeedAll(events, parse).responses| == CloseCount(events)
    decreases |events|
  {
    if events != [] {
      ResponsesPerClose(events[..|events| - 1], parse);
    }
  }

  /** A process run as Node delivers it: data events, then exactly one
      `close`. */
  predicate IsCompleteRun(events: seq<StreamEvent>) {
    events != [] && events[|events| - 1].Close? && CloseCount(events[..|events| - 1]) == 0
  }

  function ExitCode(events: seq<StreamEvent>): Option<int>
    requires IsCompleteRun(events)
  {
    events[|events| - 1].code
  }

  /** On a complete run the single response is the `close` handler's
      verdict on the concatenated output and error texts. */
  lemma CompleteRunResponse<J>(events: seq<StreamEvent>, parse: string -> Option<J>)
    requires IsCompleteRun(events)
    ensures FeedAll(events, parse).responses ==
            [OnClose(ExitCode(events), Concat(StdoutChunks(events)), Concat(StderrChunks(events)), parse)]
  {
    var init := events[..|events| - 1];
    ResponsesPerClose(init, parse);
    CaptureIsConcatenation(init, parse);
  }

  /** The route handler: no file is a client error; otherwise the file is
      moved to its staged path, a failed move is a server error carrying its
      message, and a successful one starts the script on the staged path.
      A throw while starting it is a server error carrying its message;
      otherwise the answer comes from the process's stream events. */
  function HandlePredict<J>(cfg: Config, file: Option<UploadedFile>, now: nat, rename: RenameResult, spawn: SpawnResult,
                            events: seq<StreamEvent>, parse: string -> Option<J>): Outcome<J>
  {
    match file
    case None => Outcome([], [Response(400, Error(NoFileMessage))])
    case Some(f) =>
      var staged := StagedPath(cfg, now, f.originalName);
      var move := Rename(f.tempPath, staged);
      match rename
      case RenameFailed(message) => Outcome([move], [Response(500, Error(message))])
      case Renamed =>
        match spawn
        case SpawnThrew(message) => Outcome([move], [Response(500, Error(message))])
        case Spawned =>
          Outcome([move, Spawn(Interpreter, [cfg.scriptPath, staged])], FeedAll(events, parse).responses)
  }

  /** A request without a file gets 400 "No file uploaded"; nothing is moved
      and no process is started. */
  lemma NoFileIsClientError<J>(cfg: Config, now: nat, rename: RenameResult, spawn: SpawnResult,
                               events: seq<StreamEvent>, parse: string -> Option<J>)
    ensures HandlePredict(cfg, None, now, rename, spawn, events, parse) ==
            Outcome([], [Response(400, Error(NoFileMessage))])
  {
  }

  /** A failed move gets 500 with the error's message, and no process is
      started. */
  lemma RenameFailureIsServerError<J>(cfg: Config, f: UploadedFile, now: nat, message: string, spawn: SpawnResult,
                                      events: seq<StreamEvent>, parse: string -> Option<J>)
    ensures var o := HandlePredict(cfg, Some(f), now, RenameFailed(message), spawn, events, parse);
            && o.responses == [Response(500, Error(message))]
            && forall k :: 0 <= k < |o.effects| ==> !o.effects[k].Spawn?
  {
  }

  /** A throw while starting the script, after a successful move, reaches
      the same `catch`: 500 with the error's message, no process and no
      stream handler. */
  lemma SpawnFailureIsServerError<J>(cfg: Config, f: UploadedFile, now: nat, message: string,
                                     events: seq<StreamEvent>, parse: string -> Option<J>)
    ensures var o := HandlePredict(cfg, Some(f), now, Renamed, SpawnThrew(message), events, parse);
            && o.responses == [Response(500, Error(message))]
            && o.effects == [Rename(f.tempPath, StagedPath(cfg, now, f.originalName))]
  {
  }

  /** After a successful move the script is started once, on the staged
      file, whose name reads back as the request time and the original name. */
  lemma SpawnsScriptOnStagedFile<J>(cfg: Config, f: UploadedFile, now: nat,
                                    events: seq<StreamEvent>, parse: string -> Option<J>)
    ensures var o := HandlePredict(cfg, Some(f), now, Renamed, Spawned, events, parse);
            var name := StagedName(now, f.originalName);
            && o.effects == [Rename(f.tempPath, cfg.uploadsDir + "/" + name),
                             Spawn(Interpreter, [cfg.scriptPath, cfg.uploadsDir + "/" + name])]
            && ParseStagedName(name) == Some((now, f.originalName))
  {
    StagedNameRoundTrip(now, f.originalName);
  }

  /** Every request whose process (if any) runs to its `close` gets exactly
      one response. */
  lemma ExactlyOneResponse<J>(cfg: Config, file: Option<UploadedFile>, now: nat, rename: RenameResult, spawn: SpawnResult,
                              events: seq<StreamEvent>, parse: string -> Option<J>)
    requires file.Some? && rename.Renamed? && spawn.Spawned? ==> IsCompleteRun(events)
    ensures |HandlePredict(cfg, file, now, rename, spawn, events, parse).responses| == 1
  {
    if file.Some? && rename.Renamed? && spawn.Spawned? {
      CompleteRunResponse(events, parse);
    }
  }

  /** There is no time-out: a process that never closes leaves the request
      without any response. */
  lemma NoCloseNoResponse<J>(cfg: Config, f: UploadedFile, now: nat,
                             events: seq<StreamEvent>, parse: string -> Option<J>)
    requires CloseCount(events) == 0
    ensures HandlePredict(cfg, Some(f), now, Renamed, Spawned, events, parse).responses == []
  {
    ResponsesPerClose(events, parse);
  }

  /** A non-zero or missing exit code is a 500 carrying the standard-error
      text, or "Prediction failed" when that text is empty. */
  lemma NonZeroExitFails<J>(cfg: Config, f: UploadedFile, now: nat,
                            events: seq<StreamEvent>, parse: string -> Option<J>)
    requires IsCompleteRun(events) && ExitCode(events) != Some(0)
    ensures var err := Concat(StderrChunks(events));
            HandlePredict(cfg, Some(f), now, Renamed, Spawned, events, parse).responses ==
            [Response(500, Error(if err != "" then err else FailedMessage))]
  {
    CompleteRunResponse(events, parse);
  }

  /** Any standard-error text fails the request, even with exit code 0. */
  lemma StderrTextFails<J>(cfg: Config, f: UploadedFile, now: nat,
                           events: seq<StreamEvent>, parse: string -> Option<J>)
    requires IsCompleteRun(events) && Concat(StderrChunks(events)) != ""
    ensures HandlePredict(cfg, Some(f), now, Renamed, Spawned, events, parse).responses ==
            [Response(500, Error(Concat(StderrChunks(events))))]
  {
    CompleteRunResponse(events, parse);
  }

  /** Success needs exit code 0, no standard-error text and parseable
      standard output; the parsed value is then sent with status 200 as it
      is, whatever it holds. */
  lemma SuccessIff<J>(cfg: Config, f: UploadedFile, now: nat,
                      events: seq<StreamEvent>, parse: string -> Option<J>)
    requires IsCompleteRun(events)
    ensures var r := HandlePredict(cfg, Some(f), now, Renamed, Spawned, events, parse).responses[0];
            var out := Concat(StdoutChunks(events));
            && (r.status == 200 <==> ExitCode(events) == Some(0) && Concat(StderrChunks(events)) == "" && parse(out).Some?)
            && (r.status == 200 ==> r.body == Json(parse(out).value))
            && (r.status != 200 ==> r.status == 500 && r.body.Error?)
  {
    CompleteRunResponse(events, parse);
  }

  /** A clean exit whose output does not parse is a 500 "Invalid prediction
      response". */
  lemma UnparseableOutputFails<J>(cfg: Config, f: UploadedFile, now: nat,
                                  events: seq<StreamEvent>, parse: string -> Option<J>)
    requires IsCompleteRun(events) && ExitCode(events) == Some(0)
    requires Concat(StderrChunks(events)) == "" && parse(Concat(StdoutChunks(events))).None?
    ensures HandlePredict(cfg, Some(f), now, Renamed, Spawned, events, parse).responses ==
            [Response(500, Error(InvalidMessage))]
  {
    CompleteRunResponse(events, parse);
  }

  /** Status 400 means exactly that no file came; every other response is
      200 or 500. */
  lemma StatusSeparatesClientErrors<J>(cfg: Config, file: Option<UploadedFile>, now: nat, rename: RenameResult, spawn: SpawnResult,
                                       events: seq<StreamEvent>, parse: string -> Option<J>, k: nat)
    requires k < |HandlePredict(cfg, file, now, rename, spawn, events, parse).responses|
    ensures var r := HandlePredict(cfg, file, now, rename, spawn, events, parse).responses[k];
            && (r.status == 400 <==> file.None?)
            && (r.status != 400 ==> r.status == 200 || r.status == 500)
  {
    if file.Some? && rename.Renamed? && spawn.Spawned? {
      OnlyCloseResponses(events, parse, k);
    }
  }

  /** Every response the stream handlers send is a `close` verdict, so it is
      200 or 500. */
  lemma {:induction false} OnlyCloseResponses<J>(events: seq<StreamEvent>, parse: string -> Option<J>, k: nat)
    requires k < |FeedAll(events, parse).responses|
    ensures FeedAll(events, parse).responses[k].status in {200, 500}
    decreases |events|
  {
    var init := events[..|events| - 1];
    if k < |FeedAll(init, parse).responses| {
      OnlyCloseResponses(init, parse, k);
    }
  }
}

=== FILE: seqs.dfy ===
/** Order-preserving filtering of sequences (JavaScript's `Array.prototype.filter`)
    and the subsequence relation it establishes. */
module Seqs {

  /** `a` can be obtained from `b` by deleting elements, keeping the order. */
  predicate IsSubsequence<T(==)>(a: seq<T>, b: seq<T>)
    decreases |b|
  {
    if a == [] then true
    else if b == [] then false
    else if a[0] == b[0] then IsSubsequence(a[1..], b[1..])
    else IsSubsequence(a, b[1..])
  }

  /** The elements of `s` that satisfy `p`, in their original order. */
  function Filter<T>(s: seq<T>, p: T -> bool): (r: seq<T>)
    ensures |r| <= |s|
    ensures forall k :: 0 <= k < |r| ==> p(r[k])
    decreases |s|
  {
    if s == [] then []
    else if p(s[0]) then [s[0]] + Filter(s[1..], p)
    else Filter(s[1..], p)
  }

  lemma {:induction false} SubsequenceReflexive<T>(a: seq<T>)
    ensures IsSubsequence(a, a)
    decreases |a|
  {
    if a != [] {
      SubsequenceReflexive(a[1..]);
    }
  }

  /** Dropping one more element from the front of the longer sequence
      preserves the relation. */
  lemma {:induction false} SubsequenceOfTail<T>(a: seq<T>, b: seq<T>)
    requires b != []
    requires IsSubsequence(a, b[1..])
    ensures IsSubsequence(a, b)
    decreases |b|, |a|
  {
    if a != [] && a[0] == b[0] {
      // the greedy match pairs a[0] with b[0]; a[1..] then fits into b[1..]
      SubsequenceDropHead(a, b[1..]);
    }
  }

  lemma {:induction false} SubsequenceDropHead<T>(a: seq<T>, b: seq<T>)
    requires a != []
    requires IsSubsequence(a, b)
    ensures IsSubsequence(a[1..], b)
    decreases |b|, |a|
  {
    if b == [] {
    } else if a[0] == b[0] {
      SubsequenceOfTail(a[1..], b);
    } else {
      SubsequenceDropHead(a, b[1..]);
      SubsequenceOfTail(a[1..], b);
    }
  }

  lemma {:induction false} SubsequenceTransitive<T>(a: seq<T>, b: seq<T>, c: seq<T>)
    requires IsSubsequence(a, b) && IsSubsequence(b, c)
    ensures IsSubsequence(a, c)
    decreases |c|
  {
    if a == [] {
    } else if c == [] {
    } else if b[0] == c[0] {
      if a[0] == b[0] {
        SubsequenceTransitive(a[1..], b[1..], c[1..]);
      } else {
        SubsequenceTransitive(a, b[1..], c[1..]);
        SubsequenceOfTail(a, c);
      }
    } else {
      SubsequenceTransitive(a, b, c[1..]);
      SubsequenceOfTail(a, c);
    }
  }

  /** A subsequence only holds elements of the sequence it was taken from. */
  lemma {:induction false} SubsequenceMembers<T>(a: seq<T>, b: seq<T>, x: T)
    requires IsSubsequence(a, b)
    requires x in a
    ensures x in b
    decreases |b|
  {
    if a[0] == b[0] {
      if x != a[0] {
        SubsequenceMembers(a[1..], b[1..], x);
      }
    } else {
      SubsequenceMembers(a, b[1..], x);
    }
  }

  /** The filter keeps the order of its input. */
  lemma {:induction false} FilterIsSubsequence<T>(s: seq<T>, p: T -> bool)
    ensures IsSubsequence(Filter(s, p), s)
    decreases |s|
  {
    if s != [] {
      FilterIsSubsequence(s[1..], p);
      if !p(s[0]) {
        SubsequenceOfTail(Filter(s[1..], p), s);
      }
    }
  }

  /** Every occurrence of an element that satisfies `p` survives, every other
      element is dropped. */
  lemma {:induction false} FilterMultiset<T>(s: seq<T>, p: T -> bool, x: T)
    ensures multiset(Filter(s, p))[x] == if p(x) then multiset(s)[x] else 0
    decreases |s|
  {
    if s != [] {
      FilterMultiset(s[1..], p, x);
      assert s == [s[0]] + s[1..];
    }
  }

  lemma FilterMultisetAll<T>(s: seq<T>, p: T -> bool)
    ensures forall x :: multiset(Filter(s, p))[x] == if p(x) then multiset(s)[x] else 0
  {
    forall x {
      FilterMultiset(s, p, x);
    }
  }

  lemma FilterMembership<T>(s: seq<T>, p: T -> bool)
    ensures forall x :: x in Filter(s, p) <==> x in s && p(x)
  {
    forall x {
      FilterMultiset(s, p, x);
    }
  }

  /** A filter that accepts every element changes nothing. */
  lemma {:induction false} FilterKeepsAll<T>(s: seq<T>, p: T -> bool)
    requires forall k :: 0 <= k < |s| ==> p(s[k])
    ensures Filter(s, p) == s
    decreases |s|
  {
    if s != [] {
      FilterKeepsAll(s[1..], p);
    }
  }

  /** A stricter predicate selects a subsequence of what a looser one selects. */
  lemma {:induction false} FilterMonotone<T>(s: seq<T>, strict: T -> bool, loose: T -> bool)
    requires forall x :: strict(x) ==> loose(x)
    ensures IsSubsequence(Filter(s, strict), Filter(s, loose))
    decreases |s|
  {
    if s != [] {
      FilterMonotone(s[1..], strict, loose);
      if strict(s[0]) {
      } else if loose(s[0]) {
        SubsequenceOfTail(Filter(s[1..], strict), Filter(s, loose));
      }
    }
  }
}

=== FILE: string_order.dfy ===
/** Lexicographic order on strings by character code, and a sort by it. The
    page sorts its location names with `localeCompare`; this model uses the
    plain character-code order in its place. */
module StringOrder {

  /** `a` comes before `b` or equals it: `a` is a prefix of `b`, or at the
      first position where they differ `a` has the smaller character. */
  predicate Leq(a: string, b: string)
    decreases |a|
  {
    if a == [] then true
    else if b == [] then false
    else if a[0] != b[0] then a[0] < b[0]
    else Leq(a[1..], b[1..])
  }

  lemma {:induction false} LeqReflexive(a: string)
    ensures Leq(a, a)
    decreases |a|
  {
    if a != [] {
      LeqReflexive(a[1..]);
    }
  }

  lemma {:induction false} LeqTotal(a: string, b: string)
    ensures Leq(a, b) || Leq(b, a)
    decreases |a|
  {
    if a != [] && b != [] && a[0] == b[0] {
      LeqTotal(a[1..], b[1..]);
    }
  }

  lemma {:induction false} LeqAntisymmetric(a: string, b: string)
    requires Leq(a, b) && Leq(b, a)
    ensures a == b
    decreases |a|
  {
    if a != [] && b != [] {
      LeqAntisymmetric(a[1..], b[1..]);
      assert a == [a[0]] + a[1..] && b == [b[0]] + b[1..];
    }
  }

  lemma {:induction false} LeqTransitive(a: string, b: string, c: string)
    requires Leq(a, b) && Leq(b, c)
    ensures Leq(a, c)
    decreases |a|
  {
    if a != [] && b != [] && c != [] && a[0] == b[0] && b[0] == c[0] {
      LeqTransitive(a[1..], b[1..], c[1..]);
    }
  }

  predicate Sorted(s: seq<string>) {
    forall i, j :: 0 <= i < j < |s| ==> Leq(s[i], s[j])
  }

  /** Puts `x` into its place in a sorted sequence. */
  function Insert(x: string, s: seq<string>): (r: seq<string>)
    requires Sorted(s)
    ensures Sorted(r)
    ensures multiset(r) == multiset(s) + multiset{x}
    decreases |s|
  {
    if s == [] then [x]
    else if Leq(x, s[0]) then
      InsertFrontSorted(x, s);
      [x] + s
    else
      var rest := Insert(x, s[1..]);
      InsertBehindSorted(x, s, rest);
      assert s == [s[0]] + s[1..];
      [s[0]] + rest
  }

  lemma InsertFrontSorted(x: string, s: seq<string>)
    requires Sorted(s) && s != [] && Leq(x, s[0])
    ensures Sorted([x] + s)
  {
    forall j | 0 < j < |s| ensures Leq(x, s[j]) {
      LeqTransitive(x, s[0], s[j]);
    }
  }

  lemma InsertBehindSorted(x: string, s: seq<string>, rest: seq<string>)
    requires Sorted(s) && s != [] && !Leq(x, s[0])
    requires Sorted(rest) && multiset(rest) == multiset(s[1..]) + multiset{x}
    ensures Sorted([s[0]] + rest)
  {
    LeqTotal(x, s[0]);
    forall j | 0 <= j < |rest| ensures Leq(s[0], rest[j]) {
      assert rest[j] in multiset(rest);
      if rest[j] != x {
        assert rest[j] in multiset(s[1..]);
        var k :| 0 <= k < |s[1..]| && s[1..][k] == rest[j];
        assert s[k + 1] == rest[j];
      }
    }
  }

  /** Every element of `Insert(x, s)` other than `x` is an element of `s`. */
  lemma InsertMember(x: string, s: seq<string>, y: string)
    requires Sorted(s) && y in Insert(x, s)
    ensures y == x || y in s
  {
    assert y in multiset(Insert(x, s));
  }

  /** Insertion sort: a sorted permutation of `s`. */
  function Sort(s: seq<string>): (r: seq<string>)
    ensures Sorted(r)
    ensures multiset(r) == multiset(s)
    decreases |s|
  {
    if s == [] then []
    else
      assert s == [s[0]] + s[1..];
      Insert(s[0], Sort(s[1..]))
  }

  /** There is only one sorted arrangement of a collection of strings, so
      the result does not depend on the sorting algorithm. */
  lemma {:induction false} SortedUnique(a: seq<string>, b: seq<string>)
    requires Sorted(a) && Sorted(b) && multiset(a) == multiset(b)
    ensures a == b
    decreases |a|
  {
    if a != [] {
      assert a[0] == b[0] by {
        assert a[0] in multiset(b) && b[0] in multiset(a);
        var i :| 0 <= i < |b| && b[i] == a[0];
        var j :| 0 <= j < |a| && a[j] == b[0];
        LeqReflexive(a[0]);
        LeqReflexive(b[0]);
        assert Leq(b[0], b[i]);
        assert Leq(a[0], a[j]);
        LeqAntisymmetric(a[0], b[0]);
      }
      assert multiset(a[1..]) == multiset(b[1..]) by {
        assert a == [a[0]] + a[1..] && b == [b[0]] + b[1..];
        assert multiset(a[1..]) == multiset(a) - multiset{a[0]};
        assert multiset(b[1..]) == multiset(b) - multiset{b[0]};
      }
      SortedUnique(a[1..], b[1..]);
      assert a == [a[0]] + a[1..] && b == [b[0]] + b[1..];
    }
  }
}

=== FILE: text.dfy ===
/** The JavaScript string primitives the filter and the catalogue are built
    from: `trim`, `toLowerCase`, `split(",")` and `includes`. */
module Text {

  /** JavaScript's WhiteSpace and LineTerminator code points, the set that
      `String.prototype.trim` removes. */
  predicate IsSpace(c: char) {
    var n := c as int;
    n == 0x09 || n == 0x0A || n == 0x0B || n == 0x0C || n == 0x0D || n == 0x20
    || n == 0xA0 || n == 0x1680 || (0x2000 <= n <= 0x200A) || n == 0x2028
    || n == 0x2029 || n == 0x202F || n == 0x205F || n == 0x3000 || n == 0xFEFF
  }

  /** Every character of `s` from `lo` up to (not including) `hi` is white space. */
  predicate SpaceBetween(s: string, lo: int, hi: int)
    requires 0 <= lo && hi <= |s|
  {
    forall k :: lo <= k < hi ==> IsSpace(s[k])
  }

  /** `s` neither starts nor ends with white space. */
  predicate IsTrimmed(s: string) {
    s != [] ==> !IsSpace(s[0]) && !IsSpace(s[|s| - 1])
  }

  /** Drops the leading white space: what is dropped is all white space and
      what is left starts with something else. */
  function TrimStart(s: string): (r: string)
    ensures |r| <= |s| && r == s[|s| - |r|..]
    ensures SpaceBetween(s, 0, |s| - |r|)
    ensures r != [] ==> !IsSpace(r[0])
    decreases |s|
  {
    if s != [] && IsSpace(s[0]) then TrimStart(s[1..]) else s
  }

  /** `String.prototype.trim`: removes the white space at both ends. */
  function Trim(s: string): (r: string)
    ensures |r| <= |s|
    ensures IsTrimmed(r)
    decreases |s|
  {
    if s == [] then s
    else if IsSpace(s[0]) then Trim(s[1..])
    else if IsSpace(s[|s| - 1]) then Trim(s[..|s| - 1])
    else s
  }

  /** `r` is the slice of `s` at offset `i`, and everything in `s` before and
      after it is white space. */
  predicate SurroundedBySpace(s: string, i: int, r: string) {
    0 <= i && i + |r| <= |s| && r == s[i..i + |r|]
    && SpaceBetween(s, 0, i) && SpaceBetween(s, i + |r|, |s|)
  }

  /** What `Trim` keeps is a middle slice of its input with only white space
      around it. */
  lemma {:induction false} TrimIsMiddle(s: string)
    ensures exists i :: SurroundedBySpace(s, i, Trim(s))
    decreases |s|
  {
    var r := Trim(s);
    if s == [] {
      assert SurroundedBySpace(s, 0, r);
    } else if IsSpace(s[0]) {
      TrimIsMiddle(s[1..]);
      var i :| SurroundedBySpace(s[1..], i, r);
      assert s[1..][i..i + |r|] == s[i + 1..i + 1 + |r|];
      forall k | 0 <= k < i + 1 ensures IsSpace(s[k]) {
        if k > 0 { assert s[k] == s[1..][k - 1]; }
      }
      forall k | i + 1 + |r| <= k < |s| ensures IsSpace(s[k]) {
        assert s[k] == s[1..][k - 1];
      }
      assert SurroundedBySpace(s, i + 1, r);
    } else if IsSpace(s[|s| - 1]) {
      var p := s[..|s| - 1];
      TrimIsMiddle(p);
      var i :| SurroundedBySpace(p, i, r);
      assert p[i..i + |r|] == s[i..i + |r|];
      forall k | i + |r| <= k < |s| ensures IsSpace(s[k]) {
        if k < |s| - 1 { assert s[k] == p[k]; }
      }
      assert SurroundedBySpace(s, i, r);
    } else {
      assert s[0..|s|] == s;
      assert SurroundedBySpace(s, 0, r);
    }
  }

  /** `Trim` is the only way to cut a string into white space, a trimmed
      middle, and white space. */
  lemma TrimOfSurrounded(s: string, i: nat, n: nat)
    requires i + n <= |s|
    requires SpaceBetween(s, 0, i) && SpaceBetween(s, i + n, |s|) && IsTrimmed(s[i..i + n])
    ensures Trim(s) == s[i..i + n]
  {
    var r := Trim(s);
    TrimIsMiddle(s);
    var j :| SurroundedBySpace(s, j, r);
    if n > 0 {
      assert s[i..i + n][0] == s[i] && s[i..i + n][n - 1] == s[i + n - 1];
      assert !IsSpace(s[i]) && !IsSpace(s[i + n - 1]);
    }
    if |r| > 0 {
      assert r[0] == s[j] && r[|r| - 1] == s[j + |r| - 1];
      assert !IsSpace(s[j]) && !IsSpace(s[j + |r| - 1]);
    }
    if n > 0 && |r| > 0 {
      assert i == j;
      assert i + n == j + |r|;
    } else if n > 0 {
      assert false;
    } else if |r| > 0 {
      assert false;
    }
  }

  lemma TrimOfTrimmed(s: string)
    requires IsTrimmed(s)
    ensures Trim(s) == s
  {
    assert s[0..|s|] == s;
    TrimOfSurrounded(s, 0, |s|);
  }

  /** Trimming twice is trimming once. */
  lemma TrimIdempotent(s: string)
    ensures Trim(Trim(s)) == Trim(s)
  {
    TrimOfTrimmed(Trim(s));
  }

  /** Only a string made entirely of white space trims to the empty string. */
  lemma TrimEmptyIffAllSpace(s: string)
    ensures Trim(s) == "" <==> SpaceBetween(s, 0, |s|)
  {
    if SpaceBetween(s, 0, |s|) {
      TrimOfSurrounded(s, 0, 0);
    } else {
      TrimIsMiddle(s);
    }
  }

  /** ASCII case folding: `A`..`Z` become `a`..`z`, every other character is
      unchanged. */
  function LowerChar(c: char): (d: char)
    ensures 'A' <= c <= 'Z' ==> 'a' <= d <= 'z' && d as int - c as int == 32
    ensures !('A' <= c <= 'Z') ==> d == c
  {
    if 'A' <= c <= 'Z' then (c as int + 32) as char else c
  }

  /** `String.prototype.toLowerCase`, restricted to ASCII letters. */
  function ToLower(s: string): (r: string)
    ensures |r| == |s|
    ensures forall k :: 0 <= k < |s| ==> r[k] == LowerChar(s[k])
    decreases |s|
  {
    if s == [] then [] else [LowerChar(s[0])] + ToLower(s[1..])
  }

  predicate HasNoUpper(s: string) {
    forall k :: 0 <= k < |s| ==> !('A' <= s[k] <= 'Z')
  }

  lemma ToLowerHasNoUpper(s: string)
    ensures HasNoUpper(ToLower(s))
  {
  }

  /** Lower-casing twice is lower-casing once. */
  lemma ToLowerIdempotent(s: string)
    ensures ToLower(ToLower(s)) == ToLower(s)
  {
  }

  /** Rebuilds a string from its pieces, putting `sep` between neighbours. */
  function Join(parts: seq<string>, sep: char): string
    decreases |parts|
  {
    if parts == [] then ""
    else if |parts| == 1 then parts[0]
    else parts[0] + [sep] + Join(parts[1..], sep)
  }

  /** `String.prototype.split` with a one-character separator: the pieces
      between separators, in order, including empty ones; there is always at
      least one piece, so the empty string splits into `[""]`. */
  function Split(s: string, sep: char): (r: seq<string>)
    ensures |r| >= 1
    decreases |s|
  {
    if s == [] then [""]
    else
      var rest := Split(s[1..], sep);
      if s[0] == sep then [""] + rest
      else [[s[0]] + rest[0]] + rest[1..]
  }

  /** No piece holds the separator, and joining the pieces with it gives back
      the string that was split. */
  lemma {:induction false} JoinSplit(s: string, sep: char)
    ensures forall k :: 0 <= k < |Split(s, sep)| ==> sep !in Split(s, sep)[k]
    ensures Join(Split(s, sep), sep) == s
    decreases |s|
  {
    if s != [] {
      var rest := Split(s[1..], sep);
      JoinSplit(s[1..], sep);
      var r := Split(s, sep);
      if s[0] == sep {
        assert r == [""] + rest;
        assert r[1..] == rest;
        assert s == [sep] + s[1..];
      } else {
        assert r == [[s[0]] + rest[0]] + rest[1..];
        assert r[1..] == rest[1..];
        forall k | 0 <= k < |r| ensures sep !in r[k] {
          if k > 0 { assert r[k] == rest[k]; }
        }
        assert s == [s[0]] + s[1..];
      }
    }
  }

  /** Splitting undoes joining when no piece holds the separator. */
  lemma {:induction false} SplitJoin(parts: seq<string>, sep: char)
    requires |parts| >= 1
    requires forall k :: 0 <= k < |parts| ==> sep !in parts[k]
    ensures Split(Join(parts, sep), sep) == parts
    decreases |parts|, |parts[0]|
  {
    var p0 := parts[0];
    if p0 == [] {
      if |parts| == 1 {
      } else {
        assert Join(parts, sep) == [sep] + Join(parts[1..], sep);
        SplitJoin(parts[1..], sep);
      }
    } else {
      var shorter := [p0[1..]] + parts[1..];
      assert shorter[1..] == parts[1..];
      SplitJoin(shorter, sep);
      if |parts| == 1 {
        assert Join(parts, sep) == [p0[0]] + Join(shorter, sep);
      } else {
        assert Join(parts, sep) == [p0[0]] + Join(shorter, sep);
      }
      assert [p0[0]] + p0[1..] == p0;
    }
  }

  /** `s` starts with `p`. */
  predicate StartsWith(s: string, p: string) {
    |p| <= |s| && s[..|p|] == p
  }

  /** `String.prototype.includes`: `needle` occurs in `hay` at some position;
      the empty needle occurs everywhere. */
  predicate Includes(hay: string, needle: string)
    decreases |hay|
  {
    StartsWith(hay, needle) || (hay != [] && Includes(hay[1..], needle))
  }

  predicate OccursAt(hay: string, needle: string, i: int) {
    0 <= i && i + |needle| <= |hay| && hay[i..i + |needle|] == needle
  }

  /** `Includes` means an occurrence at some position. */
  lemma {:induction false} IncludesIffOccurs(hay: string, needle: string)
    ensures Includes(hay, needle) <==> exists i :: OccursAt(hay, needle, i)
    decreases |hay|
  {
    if hay == [] {
      if Includes(hay, needle) {
        assert OccursAt(hay, needle, 0);
      }
    } else {
      IncludesIffOccurs(hay[1..], needle);
      if StartsWith(hay, needle) {
        assert OccursAt(hay, needle, 0);
      } else if Includes(hay[1..], needle) {
        var i :| OccursAt(hay[1..], needle, i);
        assert hay[1..][i..i + |needle|] == hay[i + 1..i + 1 + |needle|];
        assert OccursAt(hay, needle, i + 1);
      }
      if exists i :: OccursAt(hay, needle, i) {
        var i :| OccursAt(hay, needle, i);
        if i > 0 {
          assert hay[1..][i - 1..i - 1 + |needle|] == hay[i..i + |needle|];
          assert OccursAt(hay[1..], needle, i - 1);
        }
      }
    }
  }

  /** Containment is transitive: a longer search text can only match fewer
      titles. */
  lemma IncludesTransitive(a: string, b: string, c: string)
    requires Includes(a, b) && Includes(b, c)
    ensures Includes(a, c)
  {
    IncludesIffOccurs(a, b);
    IncludesIffOccurs(b, c);
    IncludesIffOccurs(a, c);
    var i :| OccursAt(a, b, i);
    var j :| OccursAt(b, c, j);
    forall k | 0 <= k < |c| ensures a[i + j + k] == c[k] {
      assert b[j..j + |c|][k] == b[j + k];
      assert a[i..i + |b|][j + k] == a[i + j + k];
    }
    assert a[i + j..i + j + |c|] == c;
    assert OccursAt(a, c, i + j);
  }

}

=== FILE: wrappers.dfy ===
/** The one optional-value type the model needs: JavaScript's `undefined`
    fields, `NaN` results of `parseInt` and failed `JSON.parse` calls are all
    written as `None`. */
module Wrappers {

  datatype Option<+T> = None | Some(value: T) {

    /** The value, or `default` when absent (JavaScript's `x || default` for
        values whose only falsy case is absence). */
    function GetOr(default: T): T {
      match this
      case Some(v) => v
      case None => default
    }
  }
}
